=== FILE: README.md ===
# Interactive Quests — a Dafny model of the game core

Interactive Quests is a small educational game. A player enters a name and earns
points by finishing engineering "quests". The game exists twice:

- a desktop version (Tk), in which each quest advances a simulation one timer tick
  at a time;
- a web version (Streamlit), in which a button press computes a whole run in one
  loop and keeps the result in the page's session state.

This project models:

- the player record and the game engine's progression logic (`Players`, `Engine`);
- quests 3 to 7:
  - quest 3, a projectile aimed at a target (`Projectile`);
  - quest 4, a PID-controlled water tank (`TankTk`, `TankWeb`);
  - quest 5, a mass-spring-damper driven to a target (`SpringTk`, `SpringWeb`);
  - quest 6, an inverted pendulum balanced by a PID controller on the angle
    (`PendulumTk`, `PendulumWeb`);
  - quest 7, the control of a digit-classifier training loop (`Training`).

Shared helpers (an option type, clamping, the last element, the time stamp of
tick k, the square-root and trigonometry oracles) live in `Common`.

How the model is built:

- All state is immutable. A class method that mutates fields is a function from
  the old state to the new one.
- A timer that re-schedules `animate` becomes repeated application of the step
  (`Iterate`, `Play`, `Drive`).
- A web page's `run` is a method from the session and the buttons pressed to the
  new session.
- Floating-point numbers are exact reals. The run lengths proved here (500, 1000
  and 500 steps) are therefore those of exact arithmetic.
- `sqrt` is a parameter. It is defined on non-negative arguments and returns the
  non-negative root (`Common.IsSqrt`).
- `sin`, `cos` and `pi` are uninterpreted (`Common.Trig`). A member that needs a
  fact about them states it as a precondition.

## Model

| member | source | states |
|---|---|---|
| Players.NewPlayer | player.py:7-13 | a new player keeps the given name, has no points and has an empty quest history |
| Players.AddPoints | player.py:15-19 | the score rises by exactly the amount given; the name and the history are untouched |
| Players.CompleteQuest | player.py:21-25 | the history grows by one entry, the id, at its end; earlier entries are kept and nothing is deduplicated; name and score are untouched |
| Players.HasCompletedQuest | player.py:27-31 | true exactly when the id occurs at some position of the history |
| Players.Reset | player.py:33-38 | score and history are cleared and the name is kept |
| Players.CompleteThenHas | player.py:21-31 | after recording q, the membership test holds for q and for exactly the ids it held for before, plus q |
| Players.CompleteTwiceRecordsTwice | player.py:21-25 | the history is a list, not a set: completing a quest twice raises its multiplicity by two |
| Players.ResetIsFresh | player.py:33-38 | a reset player equals a new player with the same name, and reset is idempotent |
| Engine.NewEngine | game_engine.py:11-19 | a new engine has no player, index 0, the given quest list and a scoreboard showing 0 |
| Engine.StartNextQuest | game_engine.py:36-43 | the quest at the current index is started exactly when the index is below the number of quests, and otherwise the engine reports that no quests are left |
| Engine.StartQuestJourney | game_engine.py:27-34 | a player is created from the entered name only if none exists (an existing one and the rest of the state are untouched), the scoreboard shows the new player's 0, and the next quest is started |
| Engine.QuestCompleted | game_engine.py:45-50 | the completion callback appends the id, adds ten points per difficulty level, puts the player's points on the scoreboard and moves the index on by one |
| Engine.CompleteAllEffect | game_engine.py:45-50 | a series of completions moves the index by their number, appends their ids in order and adds ten times their total difficulty, and the scoreboard keeps showing the points |
| Engine.JourneyScore | game_engine.py:27-50 | from a fresh engine, after the journey starts and k quests complete, the index is k, the history is their ids and the score is ten times their total difficulty |
| Projectile.NewCannon | quests/quest3.py:15-26 | the quest starts idle with the speed at 50 m/s, no angle, no trajectory and a target between 100 and 300 m |
| Projectile.Trajectory | quests/quest3.py:83-95 | the trajectory has 200 samples, starts at the origin, and its i-th horizontal position and height are those of the projectile at the i-th of 200 evenly spaced times of the flight |
| Projectile.HeightNonNegative | quests/quest3.py:88-95 | in exact arithmetic no sampled height is negative, because the height at fraction f of the flight is proportional to f(1 - f) |
| Projectile.Fire | quests/quest3.py:73-106 | firing during an animation does nothing; an unparsable angle only shows the error; otherwise the trajectory for the current speed and angle is stored, the animation runs and its first frame is drawn, while the speed, target, angle entry and message stay as they were |
| Projectile.CheckHit | quests/quest3.py:126-139 | the message is the hit message exactly when the range is strictly within 5 m of the target, and the miss message otherwise; an unparsable angle leaves the message as it was; nothing else changes |
| Projectile.AnimateFrame | quests/quest3.py:108-124 | while the cursor is in range at a non-negative height, one more point is drawn and the cursor advances; otherwise the animation stops at the cursor and the hit check runs |
| Projectile.FirstStop | quests/quest3.py:109 | the first index from the cursor whose height is negative (or the length): every height before it is non-negative |
| Projectile.PlayStopsAtFirstNegative | quests/quest3.py:108-124 | given enough frames, the animation stops at the first negative height after the cursor (or at the end), and the hit check has run |
| Projectile.FullFlightAnimated | quests/quest3.py:73-124 | firing a parsable angle draws all 200 samples, and the final message reports a hit exactly when the range is within 5 m of the target |
| TankTk.NewTank | quests/quest4.py:13-31 | the quest starts stopped with no message, every history is exactly [0.0], the clock and the integral are 0, and no previous error is recorded |
| TankTk.Restarted | quests/quest4.py:84-96 | start and reset restore one zero sample per history, a zero clock, a zero integral and a zero previous error |
| TankTk.ResetSimulation | quests/quest4.py:118-159 | reset stops the simulation, restores the initial histories and removes the message |
| TankTk.LevelsStable | quests/quest4.py:265-273 | the success test holds exactly when each of the last (up to) 50 levels is strictly within 0.05 of the desired 0.5 |
| TankTk.NextIntegral | quests/quest4.py:193-196 | the new integral stays within [-10, 10]; it accumulates error·dt unless the tank is full while the error is positive |
| TankTk.Step | quests/quest4.py:177-230 | one tick appends one entry to every history and follows the PID law: the error is measured before the step, the derivative is the difference from the previous error over 0.1 s (0 only for a step from the constructor's state, which has no previous error), the integral follows the anti-windup rule, the valve is the feed-forward plus PID terms clamped to [0, 0.5], and the new level is the Euler step clamped to [0, 1]; the clock advances by 0.1 s |
| TankTk.Animate | quests/quest4.py:161-258 | a stopped simulation is untouched; a running one takes a step and stays running exactly while the clock is below 50 s; when it stops, the verdict is the success test on the levels |
| TankTk.FirstTickDerivativeKick | quests/quest4.py:80-96 | start and reset record a previous error of 0, so the first tick of every run has derivative 0.5 / 0.1 = 5 rather than 0 |
| TankTk.StartSimulation | quests/quest4.py:80-116 | a start is ignored while running; otherwise it restores the initial state and takes the first step, leaving two levels recorded |
| TankTk.AnimateKeepsInv | quests/quest4.py:193-230 | every tick keeps the histories aligned, every recorded level in [0, 1], every valve opening in [0, 0.5] and every integral in [-10, 10] |
| TankTk.AntiWindupNeverEngages | quests/quest4.py:193-196 | with the desired level 0.5 and the level kept in [0, 1], the anti-windup branch is unreachable, so the integral always accumulates before clamping |
| TankTk.IterateClock | quests/quest4.py:222-258 | from tick k, n more ticks reach tick k + n, record n more levels, and leave the simulation running exactly while k + n < 500 |
| TankTk.AnimateTick | quests/quest4.py:222-258 | one tick of a running simulation at tick k advances the clock to tick k + 1, records one more entry, and keeps running exactly while k + 1 < 500 |
| TankTk.RunLength | quests/quest4.py:253-273 | a started simulation stops after exactly 500 steps, with 501 levels and the verdict on the last 50 |
| TankTk.RunsUntilLastStep | quests/quest4.py:253-255 | before its 500th step a started simulation is still running |
| TankWeb.PidStep | streamlit_app/quests/quest4.py:80-96 | one loop pass satisfies the step relation: error before the step, unclamped running integral, backward-difference derivative, valve clamped to [0, 1], and the level clamped to [0, 1] |
| TankWeb.AppendFollows | streamlit_app/quests/quest4.py:79-104 | appending a sample that follows from the last one keeps every sample consistent with its predecessor |
| TankWeb.Extend | streamlit_app/quests/quest4.py:79-104 | one loop pass appends one sample at the next grid time, computed from the last sample, and the whole series stays consistent |
| TankWeb.SimulatePid | streamlit_app/quests/quest4.py:53-115 | the series start from an empty tank and hold one sample per time of the grid after 0; each sample follows from its predecessor (error against the level before the step, unclamped running integral, backward-difference derivative, clamped valve and level), so levels and valve openings stay in [0, 1] |
| TankWeb.FollowsFacts | streamlit_app/quests/quest4.py:76-83 | in a consistent run the integral is the running sum of error·dt, and the first derivative is zero because the previous error starts at the initial error |
| TankWeb.InitialSession | streamlit_app/quests/quest4.py:11-51 | a fresh or reset session has a zero scalar level, every series exactly [0.0] and no completed run |
| TankWeb.ReportedSuccessAsWritten | streamlit_app/quests/quest4.py:331-336 | the page reports success exactly when the session's scalar level, not the simulated one, is strictly within 0.05 of 0.5 |
| TankWeb.ReportedSuccess | streamlit_app/quests/quest4.py:331-336 | the intended test: success exactly when the final simulated level is strictly within 0.05 of 0.5 |
| TankWeb.Run | streamlit_app/quests/quest4.py:117-172 | reset gives the initial session and shows nothing; skip changes nothing and shows nothing; a start with no completed run stores a consistent simulation over the grid but leaves the scalar level alone; every completed run shows the as-written verdict |
| TankWeb.StableRunReportedAsFailure | streamlit_app/quests/quest4.py:164-170 | on every reachable session a run ending exactly at the desired level is reported as a failure, while the intended test reports success |
| SpringTk.EulerStep | quests/quest5.py:163-170 | the velocity changes by acceleration·dt, and the position then changes by the new velocity·dt |
| SpringTk.FixedPointIff | quests/quest5.py:155-170 | for a non-zero mass and spring, the step leaves a state unchanged exactly when it is at rest at the shifted equilibrium 10 - x0 |
| SpringTk.EquilibriumSucceedsIff | quests/quest5.py:155-216 | the resting equilibrium passes the success test exactly when the initial displacement is strictly within 0.1 of zero |
| SpringTk.Restarted | quests/quest5.py:83-87 | start and reset restore a zero clock, one sample at time 0, position x0 and velocity 0 |
| SpringTk.ResetSimulation | quests/quest5.py:106-134 | reset stops the simulation, restores the initial samples from the current displacement and clears the message |
| SpringTk.Step | quests/quest5.py:149-175 | one tick appends one time stamp dt later and the Euler successor of the last position and velocity |
| SpringTk.Animate | quests/quest5.py:136-206 | a stopped simulation is untouched; a running one takes a step and stays running exactly while the new time is below 10 s; when it stops, the verdict is the at-rest-on-target test on the last sample |
| SpringTk.StartSimulation | quests/quest5.py:79-104 | a start is ignored while running; otherwise it restores the initial samples and takes the first step, leaving two samples starting at x0 |
| SpringTk.IterateClock | quests/quest5.py:170-206 | from tick k, n more ticks reach time stamp k + n, record n more samples, and leave the simulation running exactly while k + n < 1000 |
| SpringTk.AnimateTick | quests/quest5.py:170-206 | one tick of a running simulation at tick k advances the clock to tick k + 1, records one more entry, and keeps running exactly while k + 1 < 1000 |
| SpringTk.RunLength | quests/quest5.py:202-220 | a started simulation stops after exactly 1000 steps, with 1001 samples and the verdict on the last one |
| SpringTk.RunsUntilLastStep | quests/quest5.py:202-203 | before its 1000th step a started simulation is still running |
| SpringWeb.SimulateSpring | streamlit_app/quests/quest5.py:47-88 | the run starts at rest at x0, each sample is the Euler successor of the previous one 0.01 s later, and at most 1000 steps are taken; no intermediate sample is at rest on the target, and a run that stops early ends at rest on the target |
| SpringWeb.ResetSession | streamlit_app/quests/quest5.py:12-20 | reset restores one sample at x0 and marks no run complete or successful |
| SpringWeb.Run | streamlit_app/quests/quest5.py:170-228 | reset wins; skip, no start or an already completed run leave the session unchanged; otherwise the stored run is a consistent simulation of 2 to 1001 samples with no sample between the first and the last at rest on the target, and success holds exactly when its last sample is at rest on the target, which is always so when it stopped early |
| SpringWeb.EarlyStopIsSuccess | streamlit_app/quests/quest5.py:68-88 | a run whose last sample is not at rest on the target used the whole horizon: 1001 samples ending at 10 s |
| PendulumTk.Pid | quests/quest6.py:161-171 | the error is minus the angle, the integral grows by error·dt, the derivative times dt is the change in error, and the force is the PID sum clamped to [-100, 100] |
| PendulumTk.Force | quests/quest6.py:161-171 | the force always lies within ±100 N equals the plain PID sum whenever that sum is inside the limit, and is exactly +100 N or -100 N when the sum reaches or passes that limit |
| PendulumTk.ClampOdd | quests/quest6.py:170-171 | the force limit is symmetric: clamping the negated value negates the clamped value |
| PendulumTk.PidMirror | quests/quest6.py:161-171 | the controller is odd: mirroring the angle, integral and previous error negates every term and the force |
| PendulumTk.ForceOdd | quests/quest6.py:161-171 | negating the error, integral and derivative negates the clamped force |
| PendulumTk.Integrate | quests/quest6.py:183-188 | semi-implicit Euler: each velocity changes by its acceleration·dt first, and each position then changes by the new velocity·dt |
| PendulumTk.LinearStepMirror | quests/quest6.py:179-188 | the linearised dynamics are symmetric: the mirrored state under the opposite force steps to the mirrored successor |
| PendulumTk.UprightIsEquilibrium | quests/quest6.py:161-188 | upright and at rest with nothing accumulated, the controller applies no force and the pendulum stays upright while the cart coasts |
| PendulumTk.InitialTrace | quests/quest6.py:24-37 | the series start with one sample at the 0.05 rad tilt, with zero time, cart position, velocities and force |
| PendulumTk.Append | quests/quest6.py:193-199 | appending adds exactly one sample, time stamp and force at the end and keeps every earlier sample |
| PendulumTk.IntegralPrefix | quests/quest6.py:163 | the accumulated integral depends only on the angles already summed, so later samples do not change it |
| PendulumTk.WindowIncludesLast | quests/quest6.py:235-246 | the last sample always lies in the two-second window, so success needs the final angle upright |
| PendulumTk.NewPendulum | quests/quest6.py:11-37 | the quest starts stopped, with the initial series and no message, in a state satisfying the invariant |
| PendulumTk.Restarted | quests/quest6.py:87-96 | start and reset restore the initial series, a zero integral, a zero previous error and a zero clock |
| PendulumTk.ResetSimulation | quests/quest6.py:111-140 | reset is ignored while running; otherwise it restores the initial series and clears the message |
| PendulumTk.Step | quests/quest6.py:142-199 | one tick records the PID force on the last angle and the linearised Euler successor of the last sample under that force; earlier samples, time stamps and forces are kept; the clock advances by 0.02 s; the invariant is kept |
| PendulumTk.Animate | quests/quest6.py:142-221 | a stopped simulation is untouched; a running one takes a step and stays running exactly while the clock is below 10 s; when it stops, the verdict is the two-second upright test |
| PendulumTk.StartSimulation | quests/quest6.py:83-109 | a start is ignored while running; otherwise it restores the initial series and takes the first step, leaving two samples |
| PendulumTk.IterateClock | quests/quest6.py:191-221 | from tick k, n more ticks reach time stamp k + n, record n more samples, and leave the simulation running exactly while k + n < 500 |
| PendulumTk.AnimateTick | quests/quest6.py:191-221 | one tick of a running simulation at tick k advances the clock to tick k + 1, records one more entry, and keeps running exactly while k + 1 < 500 |
| PendulumTk.RunLength | quests/quest6.py:216-246 | a started simulation stops after exactly 500 steps, with 501 samples, every force within the limit and the verdict on the last two seconds |
| PendulumTk.RunsUntilLastStep | quests/quest6.py:217-218 | before its 500th step a started simulation is still running |
| PendulumTk.BalancedEndsUpright | quests/quest6.py:235-246 | a run judged balanced ends with its final angle strictly within 0.05 rad of upright |
| PendulumWeb.Divisor | streamlit_app/quests/quest6.py:112 | the divisor of the angular acceleration stays above 0.6, so the nonlinear equations never divide by zero |
| PendulumWeb.AppendFollows | streamlit_app/quests/quest6.py:85-131 | appending the sample one loop pass produces keeps every sample consistent with its predecessor |
| PendulumWeb.Extend | streamlit_app/quests/quest6.py:85-131 | one loop pass appends one sample and the series stay consistent; the earlier angles are kept, and the integral and previous error the pass carries forward are those the longer series determines |
| PendulumWeb.SimulatePendulum | streamlit_app/quests/quest6.py:67-146 | the run starts at the 0.05 rad tilt and takes at most 500 steps; each sample is 0.02 s after the previous one and is the PID force plus nonlinear Euler step from it; forces stay in [-100, 100]; no intermediate sample has fallen past pi/2, and a run that stops early ends fallen |
| PendulumWeb.ResetSession | streamlit_app/quests/quest6.py:19-32 | reset restores the initial series and a zero clock, and marks no run complete or successful |
| PendulumWeb.Run | streamlit_app/quests/quest6.py:265-322 | reset wins; skip, no start or an already completed run leave the session unchanged; otherwise the stored run is a consistent simulation, the clock is its last time stamp, and success is the two-second upright test, which never holds for a run that fell |
| PendulumWeb.FallenNeverSucceeds | streamlit_app/quests/quest6.py:312-322 | a run whose last angle is beyond pi/2 is never judged a success |
| PendulumWeb.FirstForce | streamlit_app/quests/quest6.py:92-102 | from the initial tilt with nothing accumulated, the first force is minus the tilt weighted by the three gains, clamped |
| PendulumWeb.AccelAtRest | streamlit_app/quests/quest6.py:110-113 | from rest at the initial tilt the velocity terms vanish, leaving gravity against the cosine-weighted force |
| PendulumWeb.StepFromRest | streamlit_app/quests/quest6.py:115-117 | a step from rest moves the angle in the direction of the angular acceleration |
| PendulumWeb.FirstStepTiltsFurther | streamlit_app/quests/quest6.py:92-117 | as written, for any non-negative gains, the first force is not positive and the first step tilts the pendulum further from upright |
| PendulumWeb.RestoringForce | streamlit_app/quests/quest6.py:92-102 | the corrected force is the negated PID force and stays within the limit |
| PendulumWeb.CorrectedFirstStepRestores | streamlit_app/quests/quest6.py:92-117 | with the corrected sign, non-negative gains whose first unclamped push is at least 1 N move the pendulum toward upright on the first step |
| Training.Relu | quests/quest7.py:343-344 | ReLU is non-negative, at least its input, and equal to either 0 or the input |
| Training.ReluDerivative | quests/quest7.py:346-347 | the derivative is 1 exactly for positive inputs and 0 otherwise |
| Training.ReluIsSlopeTimesInput | quests/quest7.py:343-347 | ReLU is its derivative times its input |
| Training.ReluRow | quests/quest7.py:343-344 | ReLU applies entrywise and keeps the row length |
| Training.OneHotRow | quests/quest7.py:250-251 | a one-hot row has 10 entries: 1 in the digit's column and 0 elsewhere |
| Training.OneHot | quests/quest7.py:250-251 | the encoding has one row per label, and each row is that label's one-hot row |
| Training.OneHotRowHasSingleOne | quests/quest7.py:250-251 | each one-hot row sums to 1, with every other column 0 |
| Training.ArgMax | quests/quest7.py:265 | the prediction is an index holding the largest entry, and no earlier index holds an entry that large |
| Training.ArgMaxOneHot | quests/quest7.py:250-265 | decoding a one-hot row with arg-max gives back the digit |
| Training.MatchSetSplit | quests/quest7.py:266 | the matching positions of a batch are those of all entries but the last, plus the last position when that prediction is right |
| Training.CountMatches | quests/quest7.py:266 | the count is the number of positions where the prediction equals the label; it is at most the number of labels and equals it exactly when every prediction is right |
| Training.Accuracy | quests/quest7.py:264-266 | accuracy is the number of matching positions divided by the number of labels; it lies in [0, 1] and is 1 exactly when every prediction matches its label |
| Training.Predictions | quests/quest7.py:265 | one prediction per output row, each the row's arg-max |
| Training.PerfectOutputsScoreOne | quests/quest7.py:250-266 | outputs equal to the one-hot labels score an accuracy of 1 |
| Training.NewTrainer | quests/quest7.py:15-31 | the quest starts stopped at epoch 0 with empty histories |
| Training.CheckSuccess | quests/quest7.py:353-368 | with no validation accuracy the result is the error message; otherwise success exactly when the last accuracy is at least 0.9 (90 %) |
| Training.TrainEpoch | quests/quest7.py:239-303 | one epoch appends exactly one value to each of the four histories and changes nothing else |
| Training.TrainNextEpoch | quests/quest7.py:334-341 | while running with epochs left, one epoch is trained and counted; otherwise training stops and the success check runs |
| Training.StartTraining | quests/quest7.py:321-332 | a start is ignored while running; otherwise the histories are cleared, the epoch count is fixed and the first epoch is trained |
| Training.ResetTraining | quests/quest7.py:119-156 | reset stops training and clears the histories, the epoch counter and the message |
| Training.ResetDuringTrainingReportsNoAccuracy | quests/quest7.py:334-357 | the epoch already scheduled when a reset happens finds training stopped and reports that no validation accuracy was recorded |
| Training.DriveTrains | quests/quest7.py:334-341 | while running, the calls train one epoch each until the epoch count, then stop with the verdict on the last validation accuracy |
| Training.FullRun | quests/quest7.py:321-341 | an uninterrupted run trains exactly the chosen number of epochs, records their validation accuracies in order, and judges the last one |

## Left out

- Widgets, plots, animations, message colours and the web pages' figures are not
  modelled. Messages are the enumerations `Message` (desktop) or the session's
  `success` flag (web).
- The 20 ms, 10 ms, 20 ms and 100 ms timer delays are not modelled. A scheduled
  call is one more application of the step.
- Floating point is not modelled. Values are exact reals, so the step counts
  (500, 1000, 500) and quest 3's "no negative height" are facts of exact
  arithmetic. Rounding may change them by one sample.
- The web tank's time grid (`np.arange(dt, simulation_time + dt, dt)`) is a
  parameter of `TankWeb.SimulatePid`, because its length depends on rounding.
- `np.sqrt`, `np.sin`, `np.cos` and `np.pi` are oracles (`Common.IsSqrt`,
  `Common.Trig`). Where a proof needs bounds on them, they are stated as
  preconditions.
- Quest 3's random target is a parameter in [100, 300]. Parsing the angle text is
  a parameter `Option<real>`.
- The `skip_quest` buttons call `skip_current_quest`, which the game engine does
  not define. The web pages' skip button only stops the page.
- The quests' `end_quest` calls a base-class method that does not exist. The
  quests 2-7 constructors pass `ui=` to a base constructor that accepts only the
  id, the description and the difficulty (quests/quest.py:3). So `GameEngine()`
  itself raises a `TypeError` when it builds `Quest2(self.ui)`
  (game_engine.py:18), and the engine as written can never be constructed.
  Neither error is modelled: `Engine.QuestCompleted` models the callback as the
  engine defines it.
- Engine.NewEngine: the quest list is a parameter rather than the constructor's
  fixed `[Quest1(ui), Quest2(ui)]`, because building `Quest2` raises before any
  engine exists; the model describes the engine the constructor evidently means
  to build, over any list of quests.
- `start`/`create_plot`, `display_message`, `update_plots` and `update_animation`
  are pure presentation and are not modelled.
- In quest 4 (desktop), the unused fields `water_level` and `previous_h1` are
  left out. The previous error that the constructor does not set is `None` in
  `TankTk.NewTank`, and a step then uses a zero derivative.
- In quest 5 (desktop), the unused `x_shifted` is left out. The time stamp
  `time_elapsed` is never advanced there, and the model keeps it at 0.
- In quest 6 (desktop), the integral and the previous error are not set by the
  constructor. The model uses 0; no step reads them before a start sets them.
- `TankTk.Iterate`, `SpringTk.Iterate`, `PendulumTk.Iterate`: the sliders are read
  at every tick, while the run lemmas keep them fixed. A single `Animate` takes
  the current slider values.
- Quest 7's network numerics are not modelled: weight initialisation, data
  loading, shuffling, the forward and backward passes, softmax, cross-entropy
  and gradient steps. `Training.TrainEpoch` takes each epoch's four metrics as a
  parameter. `test_user_digit` and the drawing canvas are not modelled either.
- Quests 1 and 2, the web quest 3 and the web app's entry page are not part of
  this model.

## Findings

| source | as written | input that shows it | evidently intended | confidence | as-written member | corrected member |
|---|---|---|---|---|---|---|
| streamlit_app/quests/quest4.py:331-336 | the success test compares the desired level with the session's scalar `water_level`, which only the initialisation and the reset write (0.0), never the simulation | any run whose final simulated level is exactly 0.5: the page reports "Failure!" (`TankWeb.StableRunReportedAsFailure`) | judge the final simulated level, the last entry of `water_levels` | high, not executed | TankWeb.ReportedSuccessAsWritten | TankWeb.ReportedSuccess |
| streamlit_app/quests/quest6.py:92-113 | the error is set point minus angle, but the nonlinear cart-pole equations make a positive force tip the pole toward negative angles, so the PID force pushes the pendulum further over | the default gains Kp 100, Ki 0, Kd 20 from the 0.05 rad tilt give a first force of -55 N, and the angle grows (`PendulumWeb.FirstStepTiltsFurther`) | apply the PID law against the lean: the negated force (the desktop version's linear equations use the opposite sign and are consistent with its controller) | medium, not executed | PendulumWeb.FirstStepTiltsFurther | PendulumWeb.RestoringForce |

`TankWeb.Run`, `PendulumWeb.SimulatePendulum` and `PendulumWeb.Run` model the
pages as written. The corrected members state the behaviour the pages evidently
intend, and the lemmas next to them prove it.

=== FILE: common.dfy ===
/** Shared helpers: an option type and the real-valued clamps, absolute values and
    history slices that every quest's simulation step uses. */
module Common {

  datatype Option<T> = None | Some(value: T)

  /** The transcendental functions the quests call, left uninterpreted: only the
      facts a member states in its own `requires` are known about them. */
  datatype Trig = Trig(sin: real -> real, cos: real -> real, pi: real)

  /** What the model knows of numpy's `sqrt`: defined (and non-negative) only on
      [0, oo), so every call site is checked to pass a non-negative argument, and
      positive on (0, oo), where the tank's feed-forward term divides by it. */
  ghost predicate IsSqrt(sqrt: real --> real)
  {
    forall x :: 0.0 <= x ==> sqrt.requires(x) && 0.0 <= sqrt(x) && (0.0 < x ==> 0.0 < sqrt(x))
  }

  /** numpy's `radians`. */
  function Radians(deg: real, t: Trig): real
  {
    deg * t.pi / 180.0
  }

  function Abs(x: real): (r: real)
    ensures 0.0 <= r
    ensures r == x || r == -x
  {
    if x < 0.0 then -x else x
  }

  function Min(a: real, b: real): (r: real)
    ensures r <= a && r <= b
    ensures r == a || r == b
  {
    if a <= b then a else b
  }

  function Max(a: real, b: real): (r: real)
    ensures a <= r && b <= r
    ensures r == a || r == b
  {
    if a <= b then b else a
  }

  /** Python's `max(lo, min(x, hi))`: the value nearest to `x` inside `[lo, hi]`. */
  function Clamp(x: real, lo: real, hi: real): (r: real)
    requires lo <= hi
    ensures lo <= r <= hi
    ensures lo <= x <= hi ==> r == x
    ensures x < lo ==> r == lo
    ensures hi < x ==> r == hi
  {
    Max(lo, Min(x, hi))
  }

  /** The last element of a non-empty history (Python's `xs[-1]`). */
  function Last(xs: seq<real>): real
    requires |xs| > 0
  {
    xs[|xs| - 1]
  }

  /** Python's `xs[-n:]` for n >= 0: the last `n` elements, or all of them when fewer. */
  function Tail<T>(xs: seq<T>, n: nat): (r: seq<T>)
    ensures |r| == if |xs| < n then |xs| else n
    ensures forall i :: 0 <= i < |r| ==> r[i] == xs[|xs| - |r| + i]
  {
    if |xs| <= n then xs else xs[|xs| - n..]
  }

  /** Every element of `xs` lies in `[lo, hi]`. */
  ghost predicate AllIn(xs: seq<real>, lo: real, hi: real) {
    forall i :: 0 <= i < |xs| ==> lo <= xs[i] <= hi
  }

  lemma AllInAppend(xs: seq<real>, v: real, lo: real, hi: real)
    requires AllIn(xs, lo, hi) && lo <= v <= hi
    ensures AllIn(xs + [v], lo, hi)
  {
  }

  /** The exact time after `k` ticks of length `dt` starting from 0. */
  function Ticks(k: nat, dt: real): real
  {
    k as real * dt
  }

  /** One more tick adds one step length to the clock. */
  lemma TicksNext(k: nat, dt: real)
    ensures Ticks(k + 1, dt) == Ticks(k, dt) + dt
  {
    assert (k + 1) as real * dt == k as real * dt + 1.0 * dt;
  }

  /** With a positive step, the clock after k ticks is below the clock after n ticks
      exactly when k < n. */
  lemma TicksBelow(k: nat, n: nat, dt: real)
    requires dt > 0.0
    ensures Ticks(k, dt) < Ticks(n, dt) <==> k < n
  {
    assert Ticks(n, dt) - Ticks(k, dt) == (n as real - k as real) * dt;
    if k < n {
      assert (n as real - k as real) * dt > 0.0;
    } else {
      assert (k as real - n as real) * dt >= 0.0;
    }
  }
}

=== FILE: game_engine.dfy ===
/** The game engine's progression logic: an optional player, the index of the
    next quest, and the points shown on the scoreboard. Starting a quest's own
    screen is abstracted to reporting which quest would be started. */
module Engine {
  import opened Common
  import opened Players

  /** What the engine needs of a quest: its id and its difficulty weight. */
  datatype QuestRef = QuestRef(id: int, difficulty: int)

  datatype Engine = Engine(
    player: Option<Player>,
    questIndex: nat,
    quests: seq<QuestRef>,
    shownPoints: int)   // the scoreboard's integer variable, initially 0

  /** What `start_next_quest` does: start one quest, or tell the player none are left. */
  datatype Launch = Started(quest: QuestRef) | NoMoreQuests

  function NewEngine(quests: seq<QuestRef>): (e: Engine)
    ensures e.player == None
    ensures e.questIndex == 0
    ensures e.quests == quests
    ensures e.shownPoints == 0
  {
    Engine(None, 0, quests, 0)
  }

  /** The quest at the current index is started iff the index is in range. */
  function StartNextQuest(e: Engine): (l: Launch)
    ensures l.Started? <==> e.questIndex < |e.quests|
    ensures l.Started? ==> l.quest == e.quests[e.questIndex]
  {
    if e.questIndex < |e.quests| then Started(e.quests[e.questIndex]) else NoMoreQuests
  }

  /** Creates the player from the entered name only if there is none yet, mirrors
      its points on the scoreboard, then starts the next quest. */
  function StartQuestJourney(e: Engine, enteredName: string): (r: (Engine, Launch))
    ensures r.0.player.Some?
    ensures e.player.Some? ==> r.0 == e
    ensures e.player.None? ==> r.0.player == Some(NewPlayer(enteredName)) && r.0.shownPoints == 0
    ensures r.0.questIndex == e.questIndex && r.0.quests == e.quests
    ensures r.1 == StartNextQuest(e)
  {
    var e' := if e.player.None?
              then var p := NewPlayer(enteredName); e.(player := Some(p), shownPoints := p.points)
              else e;
    (e', StartNextQuest(e'))
  }

  /** The completion callback: record the quest, award ten points per difficulty
      level, mirror the points and move to the next quest. The source
      dereferences the player, so one must exist. */
  function QuestCompleted(e: Engine, questId: int, difficulty: int): (e': Engine)
    requires e.player.Some?
    ensures e'.player.Some?
    ensures e'.player.value.completed == e.player.value.completed + [questId]
    ensures e'.player.value.points == e.player.value.points + 10 * difficulty
    ensures e'.player.value.name == e.player.value.name
    ensures e'.shownPoints == e'.player.value.points
    ensures e'.questIndex == e.questIndex + 1
    ensures e'.quests == e.quests
  {
    var p := AddPoints(CompleteQuest(e.player.value, questId), difficulty * 10);
    e.(player := Some(p), shownPoints := p.points, questIndex := e.questIndex + 1)
  }

  /** The callbacks for a series of completions, in order. */
  function CompleteAll(e: Engine, done: seq<QuestRef>): (e': Engine)
    requires e.player.Some?
    decreases |done|
  {
    if |done| == 0 then e
    else CompleteAll(QuestCompleted(e, done[0].id, done[0].difficulty), done[1..])
  }

  function SumDifficulty(done: seq<QuestRef>): int
  {
    if |done| == 0 then 0 else done[0].difficulty + SumDifficulty(done[1..])
  }

  function Ids(done: seq<QuestRef>): (ids: seq<int>)
    ensures |ids| == |done|
    ensures forall i :: 0 <= i < |done| ==> ids[i] == done[i].id
  {
    seq(|done|, i requires 0 <= i < |done| => done[i].id)
  }

  /** Appending the first id and then the ids of the rest appends all the ids. */
  lemma IdsShift(prefix: seq<int>, done: seq<QuestRef>)
    requires |done| > 0
    ensures (prefix + [done[0].id]) + Ids(done[1..]) == prefix + Ids(done)
  {
    assert Ids(done) == [done[0].id] + Ids(done[1..]);
    assert (prefix + [done[0].id]) + Ids(done[1..]) == prefix + ([done[0].id] + Ids(done[1..]));
  }

  /** Completions move the index forward by one each, append the ids in order and
      add ten times the total difficulty; the scoreboard tracks the points. */
  lemma {:induction false} CompleteAllEffect(e: Engine, done: seq<QuestRef>)
    requires e.player.Some?
    ensures CompleteAll(e, done).player.Some?
    ensures CompleteAll(e, done).questIndex == e.questIndex + |done|
    ensures CompleteAll(e, done).player.value.points == e.player.value.points + 10 * SumDifficulty(done)
    ensures CompleteAll(e, done).player.value.completed == e.player.value.completed + Ids(done)
    ensures CompleteAll(e, done).player.value.name == e.player.value.name
    ensures |done| > 0 ==> CompleteAll(e, done).shownPoints == CompleteAll(e, done).player.value.points
    decreases |done|
  {
    if |done| > 0 {
      var e1 := QuestCompleted(e, done[0].id, done[0].difficulty);
      CompleteAllEffect(e1, done[1..]);
      IdsShift(e.player.value.completed, done);
    } else {
      assert Ids(done) == [];
    }
  }

  /** From a fresh engine, after starting the journey and completing quests with
      difficulties d1..dk, the index is k and the score is 10 * (d1 + ... + dk). */
  lemma JourneyScore(quests: seq<QuestRef>, name: string, done: seq<QuestRef>)
    ensures var e := CompleteAll(StartQuestJourney(NewEngine(quests), name).0, done);
            && e.questIndex == |done|
            && e.player.Some?
            && e.player.value.points == 10 * SumDifficulty(done)
            && e.player.value.completed == Ids(done)
            && e.shownPoints == e.player.value.points
  {
    CompleteAllEffect(StartQuestJourney(NewEngine(quests), name).0, done);
  }
}

=== FILE: pendulum_tk.dfy ===
/** Quest 6 (desktop version): an inverted pendulum on a cart, held upright by a PID
    controller on the angle. The equations of motion are linearised around the
    upright position, so one step is exact arithmetic over the reals. The PID law,
    the semi-implicit Euler update, the series and the success window are shared
    with the web version. */
module PendulumTk {
  import opened Common

  const CartMass: real := 1.0
  const PoleMass: real := 0.1
  const PoleLength: real := 0.5
  const G: real := 9.81
  const Dt: real := 0.02
  const MaxTime: real := 10.0
  const ForceLimit: real := 100.0
  const UprightTolerance: real := 0.05
  const UprightDuration: real := 2.0
  const InitialAngle: real := 0.05
  /** Exactly this many steps bring the clock from 0 to MaxTime. */
  const StepsPerRun: nat := 500

  datatype Gains = Gains(kp: real, ki: real, kd: real)

  /** The terms of one PID evaluation and the force it applies. */
  datatype Control = Control(error: real, integral: real, derivative: real, force: real)

  /** The force of one PID evaluation from its three terms, clamped to [-100, 100] N. */
  function Force(g: Gains, error: real, integral: real, derivative: real): (u: real)
    ensures -ForceLimit <= u <= ForceLimit
    ensures -ForceLimit < g.kp * error + g.ki * integral + g.kd * derivative < ForceLimit ==>
              u == g.kp * error + g.ki * integral + g.kd * derivative
    ensures g.kp * error + g.ki * integral + g.kd * derivative >= ForceLimit ==> u == ForceLimit
    ensures g.kp * error + g.ki * integral + g.kd * derivative <= -ForceLimit ==> u == -ForceLimit
  {
    Clamp(g.kp * error + g.ki * integral + g.kd * derivative, -ForceLimit, ForceLimit)
  }

  /** The PID law on the angle: the set point is upright (0 rad), the integral
      accumulates error * Dt, the derivative is the backward difference of the
      errors, and the force is clamped to [-100, 100] N. */
  function Pid(g: Gains, theta: real, integral: real, previous: real): (c: Control)
    ensures c.error == 0.0 - theta
    ensures c.integral - integral == c.error * Dt
    ensures c.derivative * Dt == c.error - previous
    ensures -ForceLimit <= c.force <= ForceLimit
    ensures c.force == Force(g, c.error, c.integral, c.derivative)
  {
    var error := 0.0 - theta;
    var integral' := integral + error * Dt;
    var derivative := (error - previous) / Dt;
    Control(error, integral', derivative, Force(g, error, integral', derivative))
  }

  /** The clamp is odd: clamping the negated value negates the clamped value. */
  lemma ClampOdd(x: real)
    ensures Clamp(-x, -ForceLimit, ForceLimit) == -Clamp(x, -ForceLimit, ForceLimit)
  {
  }

  lemma ScaleNegated(a: real, x: real)
    ensures a * -x == -(a * x)
  {
  }

  /** The force law is odd: negating all three terms negates the force. */
  lemma ForceOdd(g: Gains, error: real, integral: real, derivative: real)
    ensures Force(g, -error, -integral, -derivative) == -Force(g, error, integral, derivative)
  {
    ScaleNegated(g.kp, error);
    ScaleNegated(g.ki, integral);
    ScaleNegated(g.kd, derivative);
    ClampOdd(g.kp * error + g.ki * integral + g.kd * derivative);
  }

  /** The controller is symmetric: mirroring the angle, the accumulated integral and
      the previous error mirrors every term and the force. */
  lemma PidMirror(g: Gains, theta: real, integral: real, previous: real)
    ensures var c := Pid(g, theta, integral, previous);
            var m := Pid(g, -theta, -integral, -previous);
            m == Control(-c.error, -c.integral, -c.derivative, -c.force)
  {
    var c := Pid(g, theta, integral, previous);
    var m := Pid(g, -theta, -integral, -previous);
    assert m.error == -c.error && m.integral == -c.integral && m.derivative == -c.derivative;
    ForceOdd(g, c.error, c.integral, c.derivative);
  }

  /** One sample of the mechanical state. */
  datatype Cart = Cart(x: real, xDot: real, theta: real, thetaDot: real)

  /** The semi-implicit Euler update both versions use: each velocity first, then
      its position from the new velocity. */
  function Integrate(s: Cart, thetaAccel: real, xAccel: real): (r: Cart)
    ensures r.thetaDot - s.thetaDot == thetaAccel * Dt && r.theta - s.theta == r.thetaDot * Dt
    ensures r.xDot - s.xDot == xAccel * Dt && r.x - s.x == r.xDot * Dt
  {
    var thetaDot := s.thetaDot + thetaAccel * Dt;
    var xDot := s.xDot + xAccel * Dt;
    Cart(s.x + xDot * Dt, xDot, s.theta + thetaDot * Dt, thetaDot)
  }

  /** The linearised equations of motion: (angular, cart) acceleration under force `u`. */
  function LinearAccel(theta: real, u: real): (real, real)
  {
    ((G * theta + u / (CartMass + PoleMass)) / PoleLength, u / (CartMass + PoleMass))
  }

  function LinearStep(s: Cart, u: real): Cart
  {
    var a := LinearAccel(s.theta, u);
    Integrate(s, a.0, a.1)
  }

  function MirrorCart(s: Cart): Cart
  {
    Cart(-s.x, -s.xDot, -s.theta, -s.thetaDot)
  }

  /** The linearised dynamics are symmetric: the mirrored state under the opposite
      force evolves into the mirrored successor. */
  lemma LinearStepMirror(s: Cart, u: real)
    ensures LinearStep(MirrorCart(s), -u) == MirrorCart(LinearStep(s, u))
  {
    var a := LinearAccel(s.theta, u);
    var b := LinearAccel(-s.theta, -u);
    assert b.1 == -a.1;
    assert b.0 == -a.0;
  }

  /** Upright and at rest, with nothing accumulated, the controller applies no force
      and the pendulum stays upright; the cart keeps coasting. */
  lemma UprightIsEquilibrium(g: Gains, s: Cart)
    requires s.theta == 0.0 && s.thetaDot == 0.0
    ensures Pid(g, s.theta, 0.0, 0.0).force == 0.0
    ensures var r := LinearStep(s, 0.0);
            r.theta == 0.0 && r.thetaDot == 0.0 && r.xDot == s.xDot && r.x == s.x + s.xDot * Dt
  {
    var c := Pid(g, s.theta, 0.0, 0.0);
    assert c.error == 0.0 && c.integral == 0.0 && c.derivative == 0.0;
  }

  /** The six series the simulation records, one entry per sample. */
  datatype Trace = Trace(
    times: seq<real>,
    xs: seq<real>,
    xDots: seq<real>,
    thetas: seq<real>,
    thetaDots: seq<real>,
    forces: seq<real>)

  predicate TraceAligned(tr: Trace)
  {
    && |tr.times| > 0
    && |tr.xs| == |tr.times| && |tr.xDots| == |tr.times| && |tr.thetas| == |tr.times|
    && |tr.thetaDots| == |tr.times| && |tr.forces| == |tr.times|
  }

  /** The series both versions start from: at rest, tilted by 0.05 rad, no force. */
  function InitialTrace(): (tr: Trace)
    ensures TraceAligned(tr) && |tr.times| == 1 && tr.thetas[0] == InitialAngle
    ensures tr.times == [0.0] && tr.xs == [0.0] && tr.xDots == [0.0]
    ensures tr.thetaDots == [0.0] && tr.forces == [0.0]
  {
    Trace([0.0], [0.0], [0.0], [InitialAngle], [0.0], [0.0])
  }

  function Sample(tr: Trace, j: nat): Cart
    requires TraceAligned(tr) && j < |tr.times|
  {
    Cart(tr.xs[j], tr.xDots[j], tr.thetas[j], tr.thetaDots[j])
  }

  function Append(tr: Trace, t: real, s: Cart, u: real): (r: Trace)
    requires TraceAligned(tr)
    ensures TraceAligned(r) && |r.times| == |tr.times| + 1
    ensures Sample(r, |tr.times|) == s && r.forces[|tr.times|] == u && r.times[|tr.times|] == t
    ensures forall j :: 0 <= j < |tr.times| ==> Sample(r, j) == Sample(tr, j)
    ensures r.times[..|tr.times|] == tr.times && r.thetas[..|tr.times|] == tr.thetas
    ensures r.forces[..|tr.times|] == tr.forces
  {
    Trace(tr.times + [t], tr.xs + [s.x], tr.xDots + [s.xDot], tr.thetas + [s.theta],
          tr.thetaDots + [s.thetaDot], tr.forces + [u])
  }

  /** The accumulated integral after the first `k` steps, whose errors are minus the
      first `k` angles. */
  function IntegralUpTo(thetas: seq<real>, k: nat): real
    requires k <= |thetas|
  {
    if k == 0 then 0.0 else IntegralUpTo(thetas, k - 1) + (0.0 - thetas[k - 1]) * Dt
  }

  /** The error remembered before step `k`: zero before the first step. */
  function PreviousError(thetas: seq<real>, k: nat): real
    requires k <= |thetas|
  {
    if k == 0 then 0.0 else 0.0 - thetas[k - 1]
  }

  /** The integral only depends on the angles it has summed. */
  lemma {:induction false} IntegralPrefix(thetas: seq<real>, more: seq<real>, k: nat)
    requires k <= |thetas|
    ensures IntegralUpTo(thetas + more, k) == IntegralUpTo(thetas, k)
    decreases k
  {
    if k > 0 {
      IntegralPrefix(thetas, more, k - 1);
      assert (thetas + more)[k - 1] == thetas[k - 1];
    }
  }

  /** The window `check_success` inspects: every sample recorded at or after
      `elapsed - 2` s has an angle strictly within 0.05 rad of upright. */
  predicate UprightOverWindow(times: seq<real>, thetas: seq<real>, elapsed: real)
    requires |thetas| == |times|
  {
    forall i :: 0 <= i < |times| && times[i] >= elapsed - UprightDuration ==> Abs(thetas[i]) < UprightTolerance
  }

  /** The last sample is always inside the window, so a success needs the final
      angle upright. */
  lemma WindowIncludesLast(times: seq<real>, thetas: seq<real>)
    requires |thetas| == |times| > 0
    ensures UprightOverWindow(times, thetas, Last(times)) ==> Abs(Last(thetas)) < UprightTolerance
  {
    if UprightOverWindow(times, thetas, Last(times)) {
      assert times[|times| - 1] >= Last(times) - UprightDuration;
    }
  }

  datatype Message = NoMessage | Balanced | Fell

  datatype Pendulum = Pendulum(
    running: bool,
    trace: Trace,
    integral: real,        // integral_error; set by start and reset before any step reads it
    previousError: real,   // previous_error; likewise
    timeElapsed: real,
    message: Message)

  /** Invariant kept by every step: the series are aligned, the controller's memory
      is the one its recorded angles determine, the clock is the last time stamp,
      and every recorded force is within the limit. */
  ghost predicate Inv(s: Pendulum)
  {
    && TraceAligned(s.trace)
    && s.integral == IntegralUpTo(s.trace.thetas, |s.trace.thetas| - 1)
    && s.previousError == PreviousError(s.trace.thetas, |s.trace.thetas| - 1)
    && s.timeElapsed == Last(s.trace.times)
    && AllIn(s.trace.forces, -ForceLimit, ForceLimit)
  }

  /** The quest's initial state (`__init__`). */
  function NewPendulum(): (s: Pendulum)
    ensures Inv(s) && !s.running && s.trace == InitialTrace() && s.message == NoMessage
  {
    Pendulum(false, InitialTrace(), 0.0, 0.0, 0.0, NoMessage)
  }

  /** What `start_simulation` and `reset_simulation` both restore. */
  function Restarted(s: Pendulum): (r: Pendulum)
    ensures Inv(r) && r.trace == InitialTrace() && r.running == s.running && r.message == s.message
  {
    s.(trace := InitialTrace(), integral := 0.0, previousError := 0.0, timeElapsed := 0.0)
  }

  /** `reset_simulation`: ignored while running; otherwise restore the initial state
      and clear the message. */
  function ResetSimulation(s: Pendulum): (r: Pendulum)
    ensures s.running ==> r == s
    ensures !s.running ==> Inv(r) && !r.running && r.trace == InitialTrace() && r.message == NoMessage
  {
    if s.running then s else Restarted(s).(message := NoMessage)
  }

  /** One pass of `animate` before the time check: evaluate the PID law on the last
      angle, take one linearised Euler step under that force, advance the clock by
      Dt and append one entry to every series. */
  function Step(s: Pendulum, g: Gains): (r: Pendulum)
    requires Inv(s)
    ensures Inv(r) && |r.trace.times| == |s.trace.times| + 1
    ensures var n := |s.trace.times|;
            var c := Pid(g, Last(s.trace.thetas), s.integral, s.previousError);
            && r.trace.forces[n] == c.force
            && Sample(r.trace, n) == LinearStep(Sample(s.trace, n - 1), c.force)
            && r.timeElapsed == s.timeElapsed + Dt
    ensures forall j :: 0 <= j < |s.trace.times| ==> Sample(r.trace, j) == Sample(s.trace, j)
    ensures r.trace.times[..|s.trace.times|] == s.trace.times
    ensures r.trace.forces[..|s.trace.times|] == s.trace.forces
    ensures r.running == s.running && r.message == s.message
  {
    var n := |s.trace.times|;
    var c := Pid(g, Last(s.trace.thetas), s.integral, s.previousError);
    var next := LinearStep(Sample(s.trace, n - 1), c.force);
    var t := s.timeElapsed + Dt;
    var r := s.(trace := Append(s.trace, t, next, c.force), integral := c.integral,
                previousError := c.error, timeElapsed := t);
    IntegralPrefix(s.trace.thetas, [next.theta], n - 1);
    AllInAppend(s.trace.forces, c.force, -ForceLimit, ForceLimit);
    r
  }

  function Verdict(s: Pendulum): Message
    requires TraceAligned(s.trace)
  {
    if UprightOverWindow(s.trace.times, s.trace.thetas, s.timeElapsed) then Balanced else Fell
  }

  /** `animate`: one step when running; the simulation stops and is judged once the
      clock reaches 10 s, otherwise the timer calls it again. */
  function Animate(s: Pendulum, g: Gains): (r: Pendulum)
    requires Inv(s)
    ensures Inv(r)
    ensures !s.running ==> r == s
    ensures s.running ==> r.(running := true, message := s.message) == Step(s, g)
    ensures s.running ==> (r.running <==> r.timeElapsed < MaxTime)
    ensures s.running && !r.running ==> r.message == Verdict(r)
    ensures r.running ==> r.message == s.message
  {
    if !s.running then s
    else
      var stepped := Step(s, g);
      if stepped.timeElapsed < MaxTime then stepped
      else stepped.(running := false, message := Verdict(stepped))
  }

  /** `start_simulation`: ignored while running; otherwise restore the initial state,
      mark the simulation running and take the first step. */
  function StartSimulation(s: Pendulum, g: Gains): (r: Pendulum)
    requires Inv(s)
    ensures Inv(r)
    ensures s.running ==> r == s
    ensures !s.running ==> r == Animate(Restarted(s).(running := true), g)
    ensures !s.running ==> r.running && |r.trace.times| == 2 && r.trace.thetas[0] == InitialAngle
  {
    if s.running then s else Animate(Restarted(s).(running := true), g)
  }

  /** The timer, with the gain sliders left alone during the run; n ticks are
      n - 1 ticks followed by one more. */
  function Iterate(s: Pendulum, g: Gains, n: nat): (r: Pendulum)
    requires Inv(s)
    ensures Inv(r)
    decreases n
  {
    if n == 0 then s else Animate(Iterate(s, g, n - 1), g)
  }

  /** A running simulation at tick k moves to tick k + 1, appends one sample, and
      keeps running exactly when k + 1 < 500. */
  lemma AnimateTick(s: Pendulum, g: Gains, k: nat)
    requires Inv(s) && s.running && s.timeElapsed == Ticks(k, Dt)
    ensures Animate(s, g).timeElapsed == Ticks(k + 1, Dt)
    ensures Animate(s, g).running <==> k + 1 < StepsPerRun
    ensures |Animate(s, g).trace.times| == |s.trace.times| + 1
  {
    TicksNext(k, Dt);
    TicksBelow(k + 1, StepsPerRun, Dt);
    assert Ticks(StepsPerRun, Dt) == MaxTime;
  }

  /** While running at tick k, n further ticks reach tick k + n; the simulation
      still runs exactly when k + n < 500, and each tick appended one sample. */
  lemma {:induction false} IterateClock(s: Pendulum, g: Gains, k: nat, n: nat)
    requires Inv(s) && s.running
    requires s.timeElapsed == Ticks(k, Dt) && k + n <= StepsPerRun && k < StepsPerRun
    ensures Iterate(s, g, n).timeElapsed == Ticks(k + n, Dt)
    ensures Iterate(s, g, n).running <==> k + n < StepsPerRun
    ensures |Iterate(s, g, n).trace.times| == |s.trace.times| + n
    decreases n
  {
    if n > 0 {
      IterateClock(s, g, k, n - 1);
      AnimateTick(Iterate(s, g, n - 1), g, k + n - 1);
    }
  }

  /** A started simulation takes exactly 500 steps (the start's own and 499 timer
      ticks), then stops with 501 samples, every force within the limit, and the
      verdict on the last two seconds. */
  lemma RunLength(s: Pendulum, g: Gains)
    requires Inv(s) && !s.running
    ensures var r := Iterate(StartSimulation(s, g), g, StepsPerRun - 1);
            && !r.running && |r.trace.times| == StepsPerRun + 1
            && AllIn(r.trace.forces, -ForceLimit, ForceLimit)
            && r.message == Verdict(r)
  {
    var s1 := StartSimulation(s, g);
    IterateClock(s1, g, 1, StepsPerRun - 1);
    IterateClock(s1, g, 1, StepsPerRun - 2);
  }

  /** Before its 500th step the simulation is still running. */
  lemma RunsUntilLastStep(s: Pendulum, g: Gains, n: nat)
    requires Inv(s) && !s.running && n < StepsPerRun - 1
    ensures Iterate(StartSimulation(s, g), g, n).running
  {
    IterateClock(StartSimulation(s, g), g, 1, n);
  }

  /** A run judged balanced ends with its last angle upright. */
  lemma BalancedEndsUpright(s: Pendulum)
    requires Inv(s) && Verdict(s) == Balanced
    ensures Abs(Last(s.trace.thetas)) < UprightTolerance
  {
    WindowIncludesLast(s.trace.times, s.trace.thetas);
  }
}

=== FILE: pendulum_web.dfy ===
/** Quest 6 (web version): the whole inverted-pendulum run computed in one loop with
    the nonlinear cart-pole equations of motion, stopping early once the pendulum
    has fallen past 90 degrees, and the page's session. The sine, the cosine and pi
    are uninterpreted; only the facts each member requires are known about them. */
module PendulumWeb {
  import opened Common
  import opened PendulumTk

  /** What the model assumes of numpy's cosine and pi. */
  ghost predicate TrigFacts(t: Trig)
  {
    && (forall x :: -1.0 <= t.cos(x) <= 1.0)
    && 3.0 < t.pi
  }

  /** The divisor of the angular acceleration never vanishes: the cosine squared is
      at most 1, so it stays above 0.5 * (4/3 - 0.1/1.1). */
  lemma DivisorPositive(cs: real)
    requires -1.0 <= cs <= 1.0
    ensures PoleLength * (4.0 / 3.0 - PoleMass * (cs * cs) / (CartMass + PoleMass)) > 0.6
  {
    assert cs * cs <= 1.0 by {
      if cs >= 0.0 {
        assert cs * cs <= cs * 1.0;
      } else {
        assert cs * cs == (-cs) * (-cs) <= (-cs) * 1.0;
      }
    }
  }

  /** The divisor of `simulate_inverted_pendulum`'s angular acceleration. */
  function Divisor(cs: real): (d: real)
    requires -1.0 <= cs <= 1.0
    ensures d > 0.6
  {
    DivisorPositive(cs);
    PoleLength * (4.0 / 3.0 - PoleMass * (cs * cs) / (CartMass + PoleMass))
  }

  /** The nonlinear equations of motion of `simulate_inverted_pendulum`: (angular,
      cart) acceleration under the force `u`. */
  function NonlinearAccel(s: Cart, u: real, t: Trig): (real, real)
    requires TrigFacts(t)
  {
    var sn := t.sin(s.theta);
    var cs := t.cos(s.theta);
    var denom := CartMass + PoleMass;
    var thetaAccel := (G * sn + cs * (-u - PoleMass * PoleLength * (s.thetaDot * s.thetaDot) * sn) / denom)
                      / Divisor(cs);
    var xAccel := (u + PoleMass * PoleLength * ((s.thetaDot * s.thetaDot) * sn - thetaAccel * cs)) / denom;
    (thetaAccel, xAccel)
  }

  function NonlinearStep(s: Cart, u: real, t: Trig): Cart
    requires TrigFacts(t)
  {
    var a := NonlinearAccel(s, u, t);
    Integrate(s, a.0, a.1)
  }

  /** Sample `j` follows from sample `j - 1`: the PID law on the previous angle, with
      the integral and previous error the earlier angles determine, and one
      nonlinear Euler step under the clamped force. */
  ghost predicate StepOk(tr: Trace, j: nat, g: Gains, t: Trig)
    requires TraceAligned(tr) && 1 <= j < |tr.times| && TrigFacts(t)
  {
    var c := Pid(g, tr.thetas[j - 1], IntegralUpTo(tr.thetas, j - 1), PreviousError(tr.thetas, j - 1));
    && tr.forces[j] == c.force
    && Sample(tr, j) == NonlinearStep(Sample(tr, j - 1), c.force, t)
  }

  /** The series start from the initial tilt, the clock advances by Dt per sample,
      every force is within the limit and every later sample follows from its
      predecessor. */
  ghost predicate Follows(tr: Trace, g: Gains, t: Trig)
    requires TrigFacts(t)
  {
    && TraceAligned(tr)
    && Sample(tr, 0) == Cart(0.0, 0.0, InitialAngle, 0.0) && tr.forces[0] == 0.0
    && (forall j :: 0 <= j < |tr.times| ==> tr.times[j] == Ticks(j, Dt))
    && AllIn(tr.forces, -ForceLimit, ForceLimit)
    && forall j :: 1 <= j < |tr.times| ==> StepOk(tr, j, g, t)
  }

  /** Appending the sample one step produces keeps the series consistent. */
  lemma AppendFollows(tr: Trace, g: Gains, t: Trig, next: Cart)
    requires TrigFacts(t) && Follows(tr, g, t)
    requires var n := |tr.times|;
             var c := Pid(g, tr.thetas[n - 1], IntegralUpTo(tr.thetas, n - 1), PreviousError(tr.thetas, n - 1));
             next == NonlinearStep(Sample(tr, n - 1), c.force, t)
    ensures var n := |tr.times|;
            var c := Pid(g, tr.thetas[n - 1], IntegralUpTo(tr.thetas, n - 1), PreviousError(tr.thetas, n - 1));
            Follows(Append(tr, Ticks(n, Dt), next, c.force), g, t)
  {
    var n := |tr.times|;
    var c := Pid(g, tr.thetas[n - 1], IntegralUpTo(tr.thetas, n - 1), PreviousError(tr.thetas, n - 1));
    var r := Append(tr, Ticks(n, Dt), next, c.force);
    assert r.thetas == tr.thetas + [next.theta];
    assert r.forces == tr.forces + [c.force];
    AllInAppend(tr.forces, c.force, -ForceLimit, ForceLimit);
    forall j | 1 <= j <= n
      ensures StepOk(r, j, g, t)
    {
      IntegralPrefix(tr.thetas, [next.theta], j - 1);
      if j < n {
        assert StepOk(tr, j, g, t);
      }
    }
  }

  /** One pass of `simulate_inverted_pendulum`'s loop, given the integral and the
      previous error the earlier angles determine: the PID force on the last angle,
      one nonlinear step, and the new sample appended at the next time stamp. The
      earlier angles are left as they were. */
  function Extend(tr: Trace, g: Gains, t: Trig, integral: real, previous: real): (r: Trace)
    requires TrigFacts(t) && Follows(tr, g, t)
    requires integral == IntegralUpTo(tr.thetas, |tr.times| - 1)
    requires previous == PreviousError(tr.thetas, |tr.times| - 1)
    ensures Follows(r, g, t) && |r.times| == |tr.times| + 1
    ensures forall j :: 0 <= j < |tr.times| ==> r.thetas[j] == tr.thetas[j]
    ensures var c := Pid(g, Last(tr.thetas), integral, previous);
            IntegralUpTo(r.thetas, |tr.times|) == c.integral && PreviousError(r.thetas, |tr.times|) == c.error
  {
    var n := |tr.times|;
    var c := Pid(g, Last(tr.thetas), integral, previous);
    var next := NonlinearStep(Sample(tr, n - 1), c.force, t);
    AppendFollows(tr, g, t, next);
    IntegralPrefix(tr.thetas, [next.theta], n - 1);
    Append(tr, Ticks(n, Dt), next, c.force)
  }

  /** The initial series are consistent: nothing follows from anything yet. */
  lemma InitialFollows(g: Gains, t: Trig)
    requires TrigFacts(t)
    ensures Follows(InitialTrace(), g, t)
  {
    assert Ticks(0, Dt) == 0.0;
  }

  /** `simulate_inverted_pendulum`: step until the clock reaches 10 s, stopping right
      after the first step that leaves the pendulum more than pi/2 from upright. */
  method SimulatePendulum(g: Gains, t: Trig) returns (tr: Trace)
    requires TrigFacts(t)
    ensures Follows(tr, g, t)
    ensures 2 <= |tr.times| <= StepsPerRun + 1
    ensures forall j :: 1 <= j < |tr.times| - 1 ==> Abs(tr.thetas[j]) <= t.pi / 2.0
    ensures |tr.times| <= StepsPerRun ==> Abs(Last(tr.thetas)) > t.pi / 2.0
  {
    tr := InitialTrace();
    InitialFollows(g, t);
    var integral, previous, time := 0.0, 0.0, 0.0;
    var k: nat := 0;
    while time < MaxTime
      invariant k <= StepsPerRun && time == Ticks(k, Dt)
      invariant Follows(tr, g, t) && |tr.times| == k + 1
      invariant integral == IntegralUpTo(tr.thetas, k) && previous == PreviousError(tr.thetas, k)
      invariant forall j :: 1 <= j < |tr.times| ==> Abs(tr.thetas[j]) <= t.pi / 2.0
      decreases StepsPerRun - k
    {
      var c := Pid(g, Last(tr.thetas), integral, previous);
      tr := Extend(tr, g, t, integral, previous);
      integral, previous := c.integral, c.error;
      time := time + Dt;
      k := k + 1;
      if Abs(Last(tr.thetas)) > t.pi / 2.0 {
        break;
      }
    }
  }

  /** The page's session state, sliders included. */
  datatype Session = Session(
    gains: Gains,
    trace: Trace,
    timeElapsed: real,
    complete: bool,
    success: bool)

  /** `reset_simulation`: the initial series, clock at zero, no run complete. */
  function ResetSession(s: Session): (r: Session)
    ensures r.gains == s.gains && r.trace == InitialTrace() && r.timeElapsed == 0.0
    ensures !r.complete && !r.success
  {
    Session(s.gains, InitialTrace(), 0.0, false, false)
  }

  /** One execution of `run` after the sliders have been read into `s.gains`: reset
      wins over the other buttons, skip stops the page, and a start with no run
      complete simulates, stores the series, sets the clock to the last time stamp
      and judges the last two seconds. */
  method Run(s: Session, startPressed: bool, resetPressed: bool, skipPressed: bool, t: Trig)
    returns (r: Session)
    requires TrigFacts(t)
    ensures resetPressed ==> r == ResetSession(s)
    ensures !resetPressed && (skipPressed || !startPressed || s.complete) ==> r == s
    ensures !resetPressed && !skipPressed && startPressed && !s.complete ==>
              && r.complete && r.gains == s.gains
              && Follows(r.trace, s.gains, t)
              && r.timeElapsed == Last(r.trace.times)
              && (r.success <==> UprightOverWindow(r.trace.times, r.trace.thetas, r.timeElapsed))
              && (|r.trace.times| <= StepsPerRun ==> !r.success)
  {
    if resetPressed {
      return ResetSession(s);
    }
    if skipPressed || !startPressed || s.complete {
      return s;
    }
    var tr := SimulatePendulum(s.gains, t);
    var ok := UprightOverWindow(tr.times, tr.thetas, Last(tr.times));
    FallenNeverSucceeds(tr, t);
    r := Session(s.gains, tr, Last(tr.times), true, ok);
  }

  /** A run that stopped because the pendulum fell is never judged a success: its
      last sample is inside the window and far outside the tolerance. */
  lemma FallenNeverSucceeds(tr: Trace, t: Trig)
    requires TrigFacts(t) && TraceAligned(tr)
    ensures Abs(Last(tr.thetas)) > t.pi / 2.0 ==> !UprightOverWindow(tr.times, tr.thetas, Last(tr.times))
  {
    WindowIncludesLast(tr.times, tr.thetas);
  }

  /** The force of the first step from the initial tilt, integral and previous error 0. */
  function FirstForce(g: Gains): (u: real)
    ensures u == Pid(g, InitialAngle, 0.0, 0.0).force
    ensures u == Clamp(-(InitialAngle * g.kp + InitialAngle * Dt * g.ki + InitialAngle / Dt * g.kd), -ForceLimit, ForceLimit)
  {
    var c := Pid(g, InitialAngle, 0.0, 0.0);
    assert c.error == -InitialAngle && c.integral == -InitialAngle * Dt && c.derivative == -InitialAngle / Dt;
    c.force
  }

  /** The angular acceleration from rest at the initial tilt: the velocity terms vanish. */
  lemma AccelAtRest(u: real, t: Trig)
    requires TrigFacts(t)
    ensures var sn := t.sin(InitialAngle);
            var cs := t.cos(InitialAngle);
            && -1.0 <= cs <= 1.0
            && NonlinearAccel(Cart(0.0, 0.0, InitialAngle, 0.0), u, t).0
               == (G * sn - (cs * u) / (CartMass + PoleMass)) / Divisor(cs)
  {
    var sn := t.sin(InitialAngle);
    var cs := t.cos(InitialAngle);
    assert PoleMass * PoleLength * (0.0 * 0.0) * sn == 0.0;
    assert cs * (-u - 0.0) / (CartMass + PoleMass) == -((cs * u) / (CartMass + PoleMass));
  }

  /** A step from rest moves the angle in the direction of the angular acceleration. */
  lemma StepFromRest(u: real, t: Trig)
    requires TrigFacts(t)
    ensures var a := NonlinearAccel(Cart(0.0, 0.0, InitialAngle, 0.0), u, t).0;
            var r := NonlinearStep(Cart(0.0, 0.0, InitialAngle, 0.0), u, t);
            (a > 0.0 ==> r.theta > InitialAngle) && (a < 0.0 ==> r.theta < InitialAngle)
  {
  }

  lemma ProductSigns(cs: real, u: real)
    ensures 0.0 < cs && u <= 0.0 ==> cs * u <= 0.0
    ensures 0.99 <= cs && 1.0 <= u ==> 0.99 <= cs * u
  {
    if 0.99 <= cs && 1.0 <= u {
      assert cs * u - 0.99 == (cs - 0.99) * u + 0.99 * (u - 1.0);
      assert (cs - 0.99) * u >= 0.0;
    }
  }

  lemma QuotientSign(a: real, b: real)
    requires b > 0.0
    ensures a > 0.0 ==> a / b > 0.0
    ensures a < 0.0 ==> a / b < 0.0
  {
  }

  /** As written, the controller pushes the wrong way for these dynamics: with any
      non-negative gains the first force is not positive, and under the nonlinear
      equations (where a positive force tips the pole back) the first step tilts
      the pendulum further from upright. */
  lemma FirstStepTiltsFurther(g: Gains, t: Trig)
    requires TrigFacts(t) && 0.0 <= g.kp && 0.0 <= g.ki && 0.0 <= g.kd
    requires 0.0 < t.sin(InitialAngle) && 0.0 < t.cos(InitialAngle)
    ensures FirstForce(g) <= 0.0
    ensures NonlinearStep(Cart(0.0, 0.0, InitialAngle, 0.0), FirstForce(g), t).theta > InitialAngle
  {
    var u := FirstForce(g);
    var sn := t.sin(InitialAngle);
    var cs := t.cos(InitialAngle);
    AccelAtRest(u, t);
    ProductSigns(cs, u);
    QuotientSign(G * sn - (cs * u) / (CartMass + PoleMass), Divisor(cs));
    StepFromRest(u, t);
  }

  /** The force as evidently intended: the PID law acting against the lean under the
      nonlinear dynamics, i.e. on the error measured as angle minus set point. */
  function RestoringForce(g: Gains, theta: real, integral: real, previous: real): (u: real)
    ensures u == -Pid(g, theta, integral, previous).force
    ensures -ForceLimit <= u <= ForceLimit
  {
    PidMirror(g, theta, integral, previous);
    Pid(g, -theta, -integral, -previous).force
  }

  /** With the corrected sign the first step moves the pendulum toward upright for
      any non-negative gains whose first unclamped push is at least 1 N (the default
      gains Kp = 100, Kd = 20 give 55 N), given the sine and cosine of 0.05 rad to
      two digits. */
  lemma CorrectedFirstStepRestores(g: Gains, t: Trig)
    requires TrigFacts(t) && 0.0 <= g.kp && 0.0 <= g.ki && 0.0 <= g.kd
    requires InitialAngle * g.kp + InitialAngle * Dt * g.ki + InitialAngle / Dt * g.kd >= 1.0
    requires 0.0 < t.sin(InitialAngle) <= 0.05 && 0.99 <= t.cos(InitialAngle) <= 1.0
    ensures var u := RestoringForce(g, InitialAngle, 0.0, 0.0);
            1.0 <= u && NonlinearStep(Cart(0.0, 0.0, InitialAngle, 0.0), u, t).theta < InitialAngle
  {
    var u := RestoringForce(g, InitialAngle, 0.0, 0.0);
    assert u == -FirstForce(g);
    var sn := t.sin(InitialAngle);
    var cs := t.cos(InitialAngle);
    AccelAtRest(u, t);
    ProductSigns(cs, u);
    QuotientSign(G * sn - (cs * u) / (CartMass + PoleMass), Divisor(cs));
    StepFromRest(u, t);
  }
}

=== FILE: player.dfy ===
/** The player record: a name, a point total and the append-only list of
    completed quest ids. */
module Players {

  datatype Player = Player(name: string, points: int, completed: seq<int>)

  /** A new player carries the given name, no points and no completed quests. */
  function NewPlayer(name: string): (p: Player)
    ensures p.name == name
    ensures p.points == 0
    ensures |p.completed| == 0
  {
    Player(name, 0, [])
  }

  /** Raises the score by exactly `points`; nothing else changes. */
  function AddPoints(p: Player, points: int): (q: Player)
    ensures q.points - p.points == points
    ensures q.name == p.name && q.completed == p.completed
  {
    p.(points := p.points + points)
  }

  /** Records `questId` at the end of the history, without deduplication. */
  function CompleteQuest(p: Player, questId: int): (q: Player)
    ensures |q.completed| == |p.completed| + 1
    ensures q.completed[..|p.completed|] == p.completed
    ensures q.completed[|p.completed|] == questId
    ensures q.name == p.name && q.points == p.points
  {
    p.(completed := p.completed + [questId])
  }

  /** Whether `questId` occurs anywhere in the history. */
  function HasCompletedQuest(p: Player, questId: int): (b: bool)
    ensures b <==> exists i :: 0 <= i < |p.completed| && p.completed[i] == questId
  {
    questId in p.completed
  }

  /** Clears score and history but keeps the name. */
  function Reset(p: Player): (q: Player)
    ensures q.name == p.name
    ensures q.points == 0 && q.completed == []
  {
    p.(points := 0, completed := [])
  }

  /** A quest is reported as completed right after it was recorded, and the
      recording does not forget any earlier completion. */
  lemma CompleteThenHas(p: Player, questId: int, other: int)
    ensures HasCompletedQuest(CompleteQuest(p, questId), questId)
    ensures HasCompletedQuest(p, other) ==> HasCompletedQuest(CompleteQuest(p, questId), other)
    ensures HasCompletedQuest(CompleteQuest(p, questId), other) <==>
              other == questId || HasCompletedQuest(p, other)
  {
    var q := CompleteQuest(p, questId);
    assert q.completed[|p.completed|] == questId;
    if HasCompletedQuest(p, other) {
      var i :| 0 <= i < |p.completed| && p.completed[i] == other;
      assert q.completed[i] == other;
    }
  }

  /** Completing the same quest twice records it twice: the history is a list, not a set. */
  lemma CompleteTwiceRecordsTwice(p: Player, questId: int)
    ensures multiset(CompleteQuest(CompleteQuest(p, questId), questId).completed)[questId]
            == multiset(p.completed)[questId] + 2
  {
    var q := CompleteQuest(CompleteQuest(p, questId), questId);
    assert q.completed == p.completed + [questId] + [questId];
  }

  /** A reset player is indistinguishable from a newly created one with the same name,
      and resetting twice is the same as resetting once. */
  lemma ResetIsFresh(p: Player)
    ensures Reset(p) == NewPlayer(p.name)
    ensures Reset(Reset(p)) == Reset(p)
  {
  }
}

=== FILE: projectile.dfy ===
/** Quest 3 (desktop version): firing a projectile, the frame-by-frame animation of
    its trajectory and the hit test. The angle entry, the speed slider and the
    target distance are state; the trigonometric functions are uninterpreted. */
module Projectile {
  import opened Common

  const Gravity: real := 9.8
  /** `np.linspace(0, t_flight, num=200)` */
  const Samples: nat := 200
  const HitTolerance: real := 5.0

  datatype Message = NoMessage | InvalidAngle | HitTarget | Missed

  datatype Cannon = Cannon(
    angleEntry: Option<real>,  // the angle text box, None when it does not parse as a float
    speed: real,               // the speed slider, 10..100 m/s
    target: real,              // drawn once from [100, 300]
    running: bool,             // animation_running
    index: nat,                // animation_index
    xs: seq<real>,
    ys: seq<real>,
    drawn: nat,                // length of the trajectory prefix currently drawn
    message: Message)

  /** The quest's initial state; the random target is a parameter in its range. */
  function NewCannon(target: real): (c: Cannon)
    requires 100.0 <= target <= 300.0
    ensures !c.running && c.index == 0 && |c.xs| == 0 && |c.ys| == 0
    ensures c.speed == 50.0 && c.angleEntry == None
    ensures 100.0 <= c.target <= 300.0
  {
    Cannon(None, 50.0, target, false, 0, [], [], 0, NoMessage)
  }

  function FlightTime(v: real, deg: real, t: Trig): real
  {
    2.0 * v * t.sin(Radians(deg, t)) / Gravity
  }

  /** The horizontal distance covered at the end of the flight. */
  function Range(v: real, deg: real, t: Trig): real
  {
    v * t.cos(Radians(deg, t)) * FlightTime(v, deg, t)
  }

  /** `check_hit`'s test: the range is strictly within 5 m of the target. */
  predicate IsHit(v: real, deg: real, target: real, t: Trig)
  {
    Abs(Range(v, deg, t) - target) < HitTolerance
  }

  /** The i-th of the 200 evenly spaced sample times from 0 to the flight time. */
  function SampleTime(v: real, deg: real, t: Trig, i: nat): real
  {
    FlightTime(v, deg, t) * (i as real / (Samples - 1) as real)
  }

  function Height(v: real, deg: real, t: Trig, i: nat): real
  {
    var s := SampleTime(v, deg, t, i);
    v * t.sin(Radians(deg, t)) * s - 0.5 * Gravity * s * s
  }

  /** The sampled trajectory: 200 points, starting at the origin. */
  function Trajectory(v: real, deg: real, t: Trig): (r: (seq<real>, seq<real>))
    ensures |r.0| == Samples && |r.1| == Samples
    ensures r.0[0] == 0.0 && r.1[0] == 0.0
    ensures forall i :: 0 <= i < Samples ==> r.1[i] == Height(v, deg, t, i)
    ensures forall i :: 0 <= i < Samples ==>
              r.0[i] == v * t.cos(Radians(deg, t)) * SampleTime(v, deg, t, i)
  {
    (seq(Samples, i requires 0 <= i => v * t.cos(Radians(deg, t)) * SampleTime(v, deg, t, i)),
     seq(Samples, i requires 0 <= i => Height(v, deg, t, i)))
  }

  /** In exact arithmetic every sampled height is non-negative: the height at the
      fraction f of the flight is 2 (v sin a)^2 / g * f * (1 - f). */
  lemma HeightNonNegative(v: real, deg: real, t: Trig, i: nat)
    requires i < Samples
    ensures Height(v, deg, t, i) >= 0.0
  {
    var a := v * t.sin(Radians(deg, t));
    var f := i as real / (Samples - 1) as real;
    var tf := FlightTime(v, deg, t);
    assert tf == 2.0 * a / Gravity;
    var s := tf * f;
    assert 0.5 * Gravity * s == a * f;
    assert Height(v, deg, t, i) == s * (a - a * f);
    assert s * (a - a * f) == (2.0 / Gravity) * (a * a) * (f * (1.0 - f));
    assert (i as real) <= (Samples - 1) as real;
    assert 0.0 <= f <= 1.0;
    MulNonNegative(f, 1.0 - f);
    MulNonNegative(2.0 / Gravity, a * a);
    MulNonNegative((2.0 / Gravity) * (a * a), f * (1.0 - f));
  }

  lemma MulNonNegative(x: real, y: real)
    requires 0.0 <= x && 0.0 <= y
    ensures 0.0 <= x * y
  {
  }

  /** `fire_projectile`: ignored during an animation; an unparsable angle only
      shows an error; otherwise the trajectory is computed, the cursor is reset and
      the first frame is drawn. */
  function Fire(c: Cannon, t: Trig): (c': Cannon)
    ensures c.running ==> c' == c
    ensures !c.running && c.angleEntry.None? ==> c' == c.(message := InvalidAngle)
    ensures !c.running && c.angleEntry.Some? ==>
              c'.running && c'.index == 1 && c'.drawn == 1
              && c'.xs == Trajectory(c.speed, c.angleEntry.value, t).0
              && c'.ys == Trajectory(c.speed, c.angleEntry.value, t).1
              && c'.speed == c.speed && c'.target == c.target
              && c'.angleEntry == c.angleEntry && c'.message == c.message
  {
    if c.running then c
    else match c.angleEntry
      case None => c.(message := InvalidAngle)
      case Some(deg) =>
        var tr := Trajectory(c.speed, deg, t);
        AnimateFrame(c.(xs := tr.0, ys := tr.1, index := 0, running := true), t)
  }

  /** `check_hit`: re-reads the angle entry; if it no longer parses, the raised
      error leaves the message as it was. */
  function CheckHit(c: Cannon, t: Trig): (c': Cannon)
    ensures c.angleEntry.Some? ==>
              (c'.message == HitTarget <==> IsHit(c.speed, c.angleEntry.value, c.target, t))
    ensures c.angleEntry.Some? ==> c'.message in {HitTarget, Missed}
    ensures c.angleEntry.None? ==> c'.message == c.message
    ensures c'.(message := c.message) == c
  {
    match c.angleEntry
    case None => c
    case Some(deg) => c.(message := if IsHit(c.speed, deg, c.target, t) then HitTarget else Missed)
  }

  /** Whether the animation draws the frame at the cursor. */
  predicate Continues(c: Cannon)
    requires |c.xs| == |c.ys|
  {
    c.index < |c.xs| && c.ys[c.index] >= 0.0
  }

  /** `animate_projectile`: while the cursor is in range and the height there is
      non-negative, draw the prefix up to the cursor and advance; otherwise stop
      and check for a hit. */
  function AnimateFrame(c: Cannon, t: Trig): (c': Cannon)
    requires |c.xs| == |c.ys|
    ensures |c'.xs| == |c'.ys| && c'.xs == c.xs && c'.ys == c.ys
    ensures Continues(c) ==> c'.index == c.index + 1 && c'.drawn == c.index + 1
                             && c'.running == c.running && c'.message == c.message
    ensures !Continues(c) ==> !c'.running && c'.index == c.index
                              && c' == CheckHit(c.(running := false), t)
  {
    if Continues(c) then c.(drawn := c.index + 1, index := c.index + 1)
    else CheckHit(c.(running := false), t)
  }

  /** The scheduler: keep calling `animate_projectile` while the animation runs. */
  function Play(c: Cannon, t: Trig, fuel: nat): Cannon
    requires |c.xs| == |c.ys|
    decreases fuel
  {
    if fuel == 0 || !c.running then c else Play(AnimateFrame(c, t), t, fuel - 1)
  }

  /** The first index at or after `from` whose height is negative, or the length. */
  function FirstStop(ys: seq<real>, from: nat): (k: nat)
    requires from <= |ys|
    ensures from <= k <= |ys|
    ensures forall j :: from <= j < k ==> ys[j] >= 0.0
    ensures k < |ys| ==> ys[k] < 0.0
    decreases |ys| - from
  {
    if from == |ys| || ys[from] < 0.0 then from else FirstStop(ys, from + 1)
  }

  /** The animation always terminates: with enough frames the cursor stops at the
      first negative height (or at the end), the animation is no longer running
      and the hit check has run. */
  lemma {:induction false} PlayStopsAtFirstNegative(c: Cannon, t: Trig, fuel: nat)
    requires |c.xs| == |c.ys| && c.running && c.index <= |c.xs|
    requires fuel > |c.xs| - c.index
    ensures !Play(c, t, fuel).running
    ensures Play(c, t, fuel).index == FirstStop(c.ys, c.index)
    ensures Play(c, t, fuel).xs == c.xs && Play(c, t, fuel).ys == c.ys
    ensures Play(c, t, fuel) ==
            CheckHit(c.(running := false, index := FirstStop(c.ys, c.index),
                        drawn := if FirstStop(c.ys, c.index) == c.index then c.drawn
                                 else FirstStop(c.ys, c.index)), t)
    decreases fuel
  {
    var c1 := AnimateFrame(c, t);
    if Continues(c) {
      PlayStopsAtFirstNegative(c1, t, fuel - 1);
    }
  }

  /** Firing a parsable angle draws all 200 samples: in exact arithmetic no height is
      negative, so the animation stops only past the last sample, then checks the hit. */
  lemma FullFlightAnimated(c: Cannon, t: Trig, fuel: nat)
    requires !c.running && c.angleEntry.Some?
    requires fuel >= Samples
    ensures var e := Play(Fire(c, t), t, fuel);
            && !e.running && e.index == Samples && e.drawn == Samples
            && (e.message == HitTarget <==> IsHit(c.speed, c.angleEntry.value, c.target, t))
  {
    var f := Fire(c, t);
    var ys := f.ys;
    forall j | 0 <= j < Samples ensures ys[j] >= 0.0 {
      HeightNonNegative(c.speed, c.angleEntry.value, t, j);
    }
    NoNegativeMeansFullStop(ys, 1);
    PlayStopsAtFirstNegative(f, t, fuel);
  }

  lemma {:induction false} NoNegativeMeansFullStop(ys: seq<real>, from: nat)
    requires from <= |ys|
    requires forall j :: from <= j < |ys| ==> ys[j] >= 0.0
    ensures FirstStop(ys, from) == |ys|
    decreases |ys| - from
  {
    if from < |ys| {
      NoNegativeMeansFullStop(ys, from + 1);
    }
  }
}

=== FILE: spring_tk.dfy ===
/** Quest 5 (desktop version): a mass on a spring with a damper, pulled toward an
    equilibrium shifted by the initial displacement and advanced by one
    semi-implicit Euler step per timer tick. The dynamics are linear, so the
    model is exact over the reals. */
module SpringTk {
  import opened Common

  const Dt: real := 0.01
  const MaxTime: real := 10.0
  const TargetPosition: real := 10.0
  const VelocityThreshold: real := 0.05
  const PositionTolerance: real := 0.1
  /** Exactly this many steps bring the clock from 0 to MaxTime. */
  const StepsPerRun: nat := 1000

  /** The four sliders, read again at every step. The mass slider starts at 0.1
      and the spring slider at 0.1, so neither is ever zero. */
  datatype Params = Params(mass: real, spring: real, damping: real, x0: real)

  /** The equilibrium the spring pulls toward: the target shifted by the initial displacement. */
  function Equilibrium(p: Params): real
  {
    TargetPosition - p.x0
  }

  function Accel(p: Params, x: real, v: real): real
    requires p.mass != 0.0
  {
    (-p.damping * v - p.spring * (x - Equilibrium(p))) / p.mass
  }

  /** One semi-implicit Euler step: the new velocity first, then the position from
      the new velocity. Returns (position, velocity). */
  function EulerStep(p: Params, x: real, v: real): (r: (real, real))
    requires p.mass != 0.0
    ensures r.1 - v == Accel(p, x, v) * Dt
    ensures r.0 - x == r.1 * Dt
  {
    var v' := v + Accel(p, x, v) * Dt;
    (x + v' * Dt, v')
  }

  /** The equilibrium at rest is the only state the step leaves unchanged. */
  lemma FixedPointIff(p: Params, x: real, v: real)
    requires p.mass != 0.0 && p.spring != 0.0
    ensures EulerStep(p, x, v) == (x, v) <==> (x == Equilibrium(p) && v == 0.0)
  {
    var r := EulerStep(p, x, v);
    if r == (x, v) {
      assert Accel(p, x, v) * Dt == 0.0;
      assert r.1 * Dt == 0.0;
      assert v == 0.0;
      assert Accel(p, x, v) == 0.0;
      assert -p.spring * (x - Equilibrium(p)) == 0.0;
      assert x - Equilibrium(p) == 0.0;
    }
  }

  /** `check_success`: the mass has (almost) stopped (almost) at the target. */
  predicate AtRestOnTarget(x: real, v: real)
  {
    Abs(v) < VelocityThreshold && Abs(x - TargetPosition) < PositionTolerance
  }

  /** The resting equilibrium passes the success test exactly when the initial
      displacement is within 0.1 of zero: for any other start the mass settles
      at 10 - x0 and the test, which compares against 10, rejects it. */
  lemma EquilibriumSucceedsIff(p: Params)
    ensures AtRestOnTarget(Equilibrium(p), 0.0) <==> -PositionTolerance < p.x0 < PositionTolerance
  {
  }

  datatype Message = NoMessage | Stopped | KeepTrying

  datatype Spring = Spring(
    running: bool,
    times: seq<real>,
    positions: seq<real>,
    velocities: seq<real>,
    timeElapsed: real,   // reset to 0 by start and reset, never advanced by a step
    message: Message)

  /** The three histories have one entry per sample and are never empty. */
  predicate Aligned(s: Spring)
  {
    |s.times| > 0 && |s.positions| == |s.times| && |s.velocities| == |s.times|
  }

  /** The histories `start_simulation` and `reset_simulation` restore. */
  function Restarted(s: Spring, x0: real): (r: Spring)
    ensures Aligned(r) && r.times == [0.0] && r.positions == [x0] && r.velocities == [0.0]
    ensures r.running == s.running && r.message == s.message && r.timeElapsed == 0.0
  {
    s.(timeElapsed := 0.0, times := [0.0], positions := [x0], velocities := [0.0])
  }

  /** `reset_simulation`: stop, restore the initial histories and clear the message. */
  function ResetSimulation(s: Spring, p: Params): (r: Spring)
    ensures Aligned(r) && !r.running && r.message == NoMessage
    ensures r.times == [0.0] && r.positions == [p.x0] && r.velocities == [0.0]
  {
    Restarted(s, p.x0).(running := false, message := NoMessage)
  }

  /** One step appended to the histories (the body of `animate` before the time check). */
  function Step(s: Spring, p: Params): (r: Spring)
    requires Aligned(s) && p.mass != 0.0
    ensures Aligned(r) && |r.times| == |s.times| + 1
    ensures r.times == s.times + [Last(s.times) + Dt]
    ensures r.positions == s.positions + [EulerStep(p, Last(s.positions), Last(s.velocities)).0]
    ensures r.velocities == s.velocities + [EulerStep(p, Last(s.positions), Last(s.velocities)).1]
    ensures r.running == s.running && r.message == s.message && r.timeElapsed == s.timeElapsed
  {
    var next := EulerStep(p, Last(s.positions), Last(s.velocities));
    var t := Last(s.times) + Dt;
    s.(times := s.times + [t], positions := s.positions + [next.0], velocities := s.velocities + [next.1])
  }

  /** The verdict `check_success` displays for the current histories. */
  function Verdict(s: Spring): Message
    requires Aligned(s)
  {
    if AtRestOnTarget(Last(s.positions), Last(s.velocities)) then Stopped else KeepTrying
  }

  /** `animate`: one step when running; the simulation stops and is judged once the
      new time reaches 10 s, otherwise the timer calls it again. */
  function Animate(s: Spring, p: Params): (r: Spring)
    requires Aligned(s) && p.mass != 0.0
    ensures Aligned(r)
    ensures !s.running ==> r == s
    ensures s.running ==> r.(running := true, message := s.message) == Step(s, p)
    ensures s.running ==> (r.running <==> Last(r.times) < MaxTime)
    ensures s.running && !r.running ==> r.message == Verdict(r)
    ensures r.running ==> r.message == s.message
  {
    if !s.running then s
    else
      var stepped := Step(s, p);
      if Last(stepped.times) < MaxTime then stepped
      else stepped.(running := false, message := Verdict(stepped))
  }

  /** `start_simulation`: ignored while running; otherwise restore the histories,
      mark the simulation running and take the first step. */
  function StartSimulation(s: Spring, p: Params): (r: Spring)
    requires p.mass != 0.0
    ensures s.running ==> r == s
    ensures !s.running ==> r == Animate(Restarted(s, p.x0).(running := true), p)
    ensures !s.running ==> r.running && r.positions[0] == p.x0 && |r.times| == 2
  {
    if s.running then s else Animate(Restarted(s, p.x0).(running := true), p)
  }

  /** The timer: `animate` is called again while the simulation runs; n ticks are
      n - 1 ticks followed by one more. */
  function Iterate(s: Spring, p: Params, n: nat): (r: Spring)
    requires Aligned(s) && p.mass != 0.0
    ensures Aligned(r)
    decreases n
  {
    if n == 0 then s else Animate(Iterate(s, p, n - 1), p)
  }

  /** A running simulation at tick k moves to time stamp k + 1, appends one sample,
      and keeps running exactly when k + 1 < 1000. */
  lemma AnimateTick(s: Spring, p: Params, k: nat)
    requires Aligned(s) && p.mass != 0.0 && s.running && Last(s.times) == Ticks(k, Dt)
    ensures Last(Animate(s, p).times) == Ticks(k + 1, Dt)
    ensures Animate(s, p).running <==> k + 1 < StepsPerRun
    ensures |Animate(s, p).times| == |s.times| + 1
  {
    TicksNext(k, Dt);
    TicksBelow(k + 1, StepsPerRun, Dt);
    assert Ticks(StepsPerRun, Dt) == MaxTime;
  }

  /** While running at tick k, n further ticks reach tick k + n; the simulation
      still runs exactly when k + n < 1000, and each tick appended one sample. */
  lemma {:induction false} IterateClock(s: Spring, p: Params, k: nat, n: nat)
    requires Aligned(s) && p.mass != 0.0 && s.running
    requires Last(s.times) == Ticks(k, Dt) && k + n <= StepsPerRun && k < StepsPerRun
    ensures Last(Iterate(s, p, n).times) == Ticks(k + n, Dt)
    ensures Iterate(s, p, n).running <==> k + n < StepsPerRun
    ensures |Iterate(s, p, n).times| == |s.times| + n
    decreases n
  {
    if n > 0 {
      IterateClock(s, p, k, n - 1);
      AnimateTick(Iterate(s, p, n - 1), p, k + n - 1);
    }
  }

  /** A started simulation takes exactly 1000 steps (the start's own and 999 timer
      ticks), then stops with 1001 samples and the verdict on the last one. */
  lemma RunLength(s: Spring, p: Params)
    requires p.mass != 0.0 && !s.running
    ensures var r := Iterate(StartSimulation(s, p), p, StepsPerRun - 1);
            && !r.running && |r.times| == StepsPerRun + 1
            && r.message == Verdict(r)
  {
    var s1 := StartSimulation(s, p);
    IterateClock(s1, p, 1, StepsPerRun - 1);
    IterateClock(s1, p, 1, StepsPerRun - 2);
  }

  /** Before its 1000th step the simulation is still running. */
  lemma RunsUntilLastStep(s: Spring, p: Params, n: nat)
    requires p.mass != 0.0 && !s.running && n < StepsPerRun - 1
    ensures Iterate(StartSimulation(s, p), p, n).running
  {
    IterateClock(StartSimulation(s, p), p, 1, n);
  }
}

=== FILE: spring_web.dfy ===
/** Quest 5 (web version): the whole mass-spring-damper run computed in one loop
    that stops early once the mass rests on the target, and the page's session. */
module SpringWeb {
  import opened Common
  import opened SpringTk

  /** The three series of one run. */
  datatype Trace = Trace(times: seq<real>, positions: seq<real>, velocities: seq<real>)

  predicate TraceAligned(tr: Trace)
  {
    |tr.times| > 0 && |tr.positions| == |tr.times| && |tr.velocities| == |tr.times|
  }

  /** The series start at rest at `x0`, the clock advances by `Dt` per sample and
      every sample is one Euler step from its predecessor. */
  ghost predicate Integrates(tr: Trace, p: Params)
    requires p.mass != 0.0
  {
    && TraceAligned(tr)
    && tr.positions[0] == p.x0 && tr.velocities[0] == 0.0
    && (forall j :: 0 <= j < |tr.times| ==> tr.times[j] == Ticks(j, Dt))
    && forall j :: 1 <= j < |tr.times| ==>
         (tr.positions[j], tr.velocities[j]) == EulerStep(p, tr.positions[j - 1], tr.velocities[j - 1])
  }

  /** No sample after the first rests on the target. */
  ghost predicate NeverAtRest(tr: Trace)
    requires TraceAligned(tr)
  {
    forall j :: 1 <= j < |tr.times| ==> !AtRestOnTarget(tr.positions[j], tr.velocities[j])
  }

  /** Appending the next time stamp and the Euler step from the last sample keeps
      the series integrated, and leaves the earlier samples as they were. */
  lemma AppendSample(tr: Trace, p: Params, t: real, x: real, v: real)
    requires p.mass != 0.0 && Integrates(tr, p)
    requires t == Ticks(|tr.times|, Dt) && (x, v) == EulerStep(p, Last(tr.positions), Last(tr.velocities))
    ensures var r := Trace(tr.times + [t], tr.positions + [x], tr.velocities + [v]);
            && Integrates(r, p)
            && (NeverAtRest(tr) ==> forall j :: 1 <= j < |tr.times| ==> !AtRestOnTarget(r.positions[j], r.velocities[j]))
  {
    var r := Trace(tr.times + [t], tr.positions + [x], tr.velocities + [v]);
    assert forall j :: 0 <= j < |tr.times| ==>
      r.times[j] == tr.times[j] && r.positions[j] == tr.positions[j] && r.velocities[j] == tr.velocities[j];
  }

  /** `simulate_mass_spring_damper` with the default 10 s horizon and 0.01 s step:
      step until the clock reaches 10 s, stopping right after the first step that
      leaves the mass at rest on the target. */
  method SimulateSpring(p: Params) returns (tr: Trace)
    requires p.mass != 0.0
    ensures Integrates(tr, p)
    ensures 2 <= |tr.times| <= StepsPerRun + 1
    ensures forall j :: 1 <= j < |tr.times| - 1 ==> !AtRestOnTarget(tr.positions[j], tr.velocities[j])
    ensures |tr.times| <= StepsPerRun ==> AtRestOnTarget(Last(tr.positions), Last(tr.velocities))
  {
    tr := Trace([0.0], [p.x0], [0.0]);
    var x, v, t := p.x0, 0.0, 0.0;
    var k: nat := 0;
    while t < MaxTime
      invariant k <= StepsPerRun && t == Ticks(k, Dt)
      invariant Integrates(tr, p) && |tr.times| == k + 1
      invariant x == Last(tr.positions) && v == Last(tr.velocities)
      invariant NeverAtRest(tr)
      decreases StepsPerRun - k
    {
      var next := EulerStep(p, x, v);
      x, v := next.0, next.1;
      t := t + Dt;
      k := k + 1;
      AppendSample(tr, p, t, x, v);
      tr := Trace(tr.times + [t], tr.positions + [x], tr.velocities + [v]);
      if AtRestOnTarget(x, v) {
        break;
      }
    }
  }

  /** The page's session state, sliders included. */
  datatype Session = Session(
    params: Params,
    trace: Trace,
    complete: bool,
    success: bool)

  /** `reset_simulation`: the series restart from the current initial displacement
      and no run is complete. */
  function ResetSession(s: Session): (r: Session)
    ensures r.params == s.params && !r.complete && !r.success
    ensures r.trace == Trace([0.0], [s.params.x0], [0.0])
  {
    Session(s.params, Trace([0.0], [s.params.x0], [0.0]), false, false)
  }

  /** One execution of `run` after the sliders have been read into `s.params`: reset
      wins over the other buttons, skip stops the page, and a start with no run
      complete simulates, stores the series and judges the final sample. */
  method Run(s: Session, startPressed: bool, resetPressed: bool, skipPressed: bool)
    returns (r: Session)
    requires s.params.mass != 0.0
    ensures resetPressed ==> r == ResetSession(s)
    ensures !resetPressed && (skipPressed || !startPressed || s.complete) ==> r == s
    ensures !resetPressed && !skipPressed && startPressed && !s.complete ==>
              && r.complete && r.params == s.params
              && Integrates(r.trace, s.params)
              && 2 <= |r.trace.times| <= StepsPerRun + 1
              && (forall j :: 1 <= j < |r.trace.times| - 1 ==>
                    !AtRestOnTarget(r.trace.positions[j], r.trace.velocities[j]))
              && (r.success <==> AtRestOnTarget(Last(r.trace.positions), Last(r.trace.velocities)))
              && (|r.trace.times| <= StepsPerRun ==> r.success)
  {
    if resetPressed {
      return ResetSession(s);
    }
    if skipPressed || !startPressed || s.complete {
      return s;
    }
    var tr := SimulateSpring(s.params);
    var ok := AtRestOnTarget(Last(tr.positions), Last(tr.velocities));
    r := Session(s.params, tr, true, ok);
  }

  /** A run that ends before the 10 s horizon always ends in success, and a run that
      fails uses the whole horizon: 1001 samples. */
  lemma EarlyStopIsSuccess(p: Params, tr: Trace)
    requires p.mass != 0.0 && Integrates(tr, p) && 2 <= |tr.times| <= StepsPerRun + 1
    requires |tr.times| <= StepsPerRun ==> AtRestOnTarget(Last(tr.positions), Last(tr.velocities))
    ensures !AtRestOnTarget(Last(tr.positions), Last(tr.velocities)) ==>
              |tr.times| == StepsPerRun + 1 && Last(tr.times) == MaxTime
  {
  }
}

=== FILE: tank_tk.dfy ===
/** Quest 4 (desktop version): one PID-controlled water tank, advanced one fixed
    time step per timer tick, with anti-windup on the integral term and clamps on
    the integral, the valve opening and the level. `sqrt` is uninterpreted
    (see `Common.IsSqrt`). */
module TankTk {
  import opened Common

  const Dt: real := 0.1
  const MaxTime: real := 50.0
  const Area: real := 1.0
  const KvMax: real := 0.5
  const Inflow: real := 0.1
  const DesiredLevel: real := 0.5
  const IntegralBound: real := 10.0
  const Tolerance: real := 0.05
  /** `check_success` looks at the last 50 levels. */
  const Window: nat := 50
  /** Exactly this many steps bring the clock from 0 to MaxTime. */
  const StepsPerRun: nat := 500

  datatype Gains = Gains(kp: real, ki: real, kd: real)

  datatype Message = NoMessage | Stable | Unstable

  datatype Tank = Tank(
    running: bool,
    h1: seq<real>,
    times: seq<real>,
    kvs: seq<real>,
    errors: seq<real>,
    integrals: seq<real>,
    derivatives: seq<real>,
    timeElapsed: real,
    integral: real,
    previousError: Option<real>,  // absent until the first start or reset
    message: Message)

  /** The six histories have one entry per sample and are never empty. */
  predicate Aligned(s: Tank)
  {
    && |s.h1| > 0
    && |s.times| == |s.h1| && |s.kvs| == |s.h1| && |s.errors| == |s.h1|
    && |s.integrals| == |s.h1| && |s.derivatives| == |s.h1|
  }

  /** The bounds every reachable state keeps. */
  ghost predicate Inv(s: Tank)
  {
    && Aligned(s)
    && AllIn(s.h1, 0.0, 1.0)
    && AllIn(s.kvs, 0.0, KvMax)
    && AllIn(s.integrals, -IntegralBound, IntegralBound)
    && -IntegralBound <= s.integral <= IntegralBound
  }

  /** The constructor's state. */
  function NewTank(): (s: Tank)
    ensures Inv(s) && !s.running && s.previousError.None? && s.message == NoMessage
    ensures s.h1 == [0.0] && s.times == [0.0] && s.kvs == [0.0]
    ensures s.errors == [0.0] && s.integrals == [0.0] && s.derivatives == [0.0]
    ensures s.timeElapsed == 0.0 && s.integral == 0.0
  {
    Tank(false, [0.0], [0.0], [0.0], [0.0], [0.0], [0.0], 0.0, 0.0, None, NoMessage)
  }

  /** The parameters both `start_simulation` and `reset_simulation` restore. */
  function Restarted(s: Tank): (r: Tank)
    ensures Inv(r)
    ensures r.h1 == [0.0] && r.times == [0.0] && r.kvs == [0.0]
    ensures r.errors == [0.0] && r.integrals == [0.0] && r.derivatives == [0.0]
    ensures r.timeElapsed == 0.0 && r.integral == 0.0 && r.previousError == Some(0.0)
    ensures r.running == s.running && r.message == s.message
  {
    s.(h1 := [0.0], times := [0.0], kvs := [0.0], errors := [0.0], integrals := [0.0],
       derivatives := [0.0], timeElapsed := 0.0, integral := 0.0, previousError := Some(0.0))
  }

  /** `reset_simulation`: stop, restore the initial histories, remove the message. */
  function ResetSimulation(s: Tank): (r: Tank)
    ensures !r.running && r.message == NoMessage
    ensures r == Restarted(s).(running := false, message := NoMessage)
  {
    Restarted(s).(running := false, message := NoMessage)
  }

  /** `check_success`: every one of the last (up to) 50 levels is strictly within
      0.05 of the desired level. */
  function LevelsStable(h1: seq<real>): (b: bool)
    ensures b <==> forall i :: 0 <= i < |h1| && |h1| - Window <= i ==> Abs(h1[i] - DesiredLevel) < Tolerance
  {
    var last := Tail(h1, Window);
    assert forall i :: 0 <= i < |h1| && |h1| - Window <= i ==> h1[i] == last[i - (|h1| - |last|)];
    forall i :: 0 <= i < |last| ==> Abs(last[i] - DesiredLevel) < Tolerance
  }

  /** The integral after one step: anti-windup skips accumulation when the tank is
      full and the error is positive; the result is clamped to [-10, 10]. */
  function NextIntegral(integral: real, h: real, error: real): (r: real)
    ensures -IntegralBound <= r <= IntegralBound
    ensures !(h >= 1.0 && error > 0.0) ==> r == Clamp(integral + error * Dt, -IntegralBound, IntegralBound)
    ensures h >= 1.0 && error > 0.0 ==> r == Clamp(integral, -IntegralBound, IntegralBound)
  {
    var acc := if !(h >= 1.0 && error > 0.0) then integral + error * Dt else integral;
    Max(-IntegralBound, Min(acc, IntegralBound))
  }

  /** The valve opening: the feed-forward opening `Inflow / sqrt(0.5)` that holds the
      level at the set point, plus `kp * error + ki * integral - kd * derivative`,
      clamped to [0, 0.5]; `Step` states its callers' use of this value. */
  function Valve(g: Gains, error: real, integral: real, derivative: real, sqrt: real --> real): (kv: real)
    requires IsSqrt(sqrt)
    ensures 0.0 <= kv <= KvMax
  {
    Max(0.0, Min(Inflow / sqrt(DesiredLevel) + g.kp * error + g.ki * integral - g.kd * derivative, KvMax))
  }

  /** The level after one Euler step of `dh/dt = (Inflow - kv * sqrt(max(h, 0))) / Area`
      over 0.1 s under the valve opening `kv`, clamped to [0, 1]. */
  function NextLevel(h: real, kv: real, sqrt: real --> real): (r: real)
    requires IsSqrt(sqrt)
    ensures 0.0 <= r <= 1.0
  {
    Min(Max(h + (Inflow - kv * sqrt(Max(h, 0.0))) / Area * Dt, 0.0), 1.0)
  }

  /** One PID step of the tank, appended to every history (the body of `animate`
      before the time check). */
  function Step(s: Tank, g: Gains, sqrt: real --> real): (r: Tank)
    requires IsSqrt(sqrt)
    requires |s.h1| > 0
    ensures var error := DesiredLevel - Last(s.h1);
            var derivative := if s.previousError.None? then 0.0 else (error - s.previousError.value) / Dt;
            && r.errors == s.errors + [error]
            && r.derivatives == s.derivatives + [derivative]
            && r.integral == NextIntegral(s.integral, Last(s.h1), error)
            && r.kvs == s.kvs + [Valve(g, error, r.integral, derivative, sqrt)]
            && r.h1 == s.h1 + [NextLevel(Last(s.h1), Last(r.kvs), sqrt)]
    ensures |r.h1| == |s.h1| + 1 && 0.0 <= Last(r.h1) <= 1.0
    ensures |r.kvs| == |s.kvs| + 1 && 0.0 <= Last(r.kvs) <= KvMax
    ensures r.times == s.times + [r.timeElapsed]
    ensures r.integrals == s.integrals + [r.integral]
    ensures -IntegralBound <= r.integral <= IntegralBound
    ensures r.previousError == Some(DesiredLevel - Last(s.h1))
    ensures r.timeElapsed == s.timeElapsed + Dt
    ensures r.running == s.running && r.message == s.message
  {
    var h := Last(s.h1);
    var error := DesiredLevel - h;
    var derivative := match s.previousError
      case Some(p) => (error - p) / Dt
      case None => 0.0;
    var integral := NextIntegral(s.integral, h, error);
    var kv := Valve(g, error, integral, derivative, sqrt);
    var level := NextLevel(h, kv, sqrt);
    var t := s.timeElapsed + Dt;
    s.(h1 := s.h1 + [level], times := s.times + [t], kvs := s.kvs + [kv],
       errors := s.errors + [error], integrals := s.integrals + [integral],
       derivatives := s.derivatives + [derivative],
       timeElapsed := t, integral := integral, previousError := Some(error))
  }

  /** `animate`: a step when running; the simulation stops and is judged once the
      clock reaches 50 s, otherwise the timer calls it again. */
  function Animate(s: Tank, g: Gains, sqrt: real --> real): (r: Tank)
    requires IsSqrt(sqrt)
    requires |s.h1| > 0
    ensures |r.h1| > 0
    ensures !s.running ==> r == s
    ensures s.running ==> r.(running := true, message := s.message) == Step(s, g, sqrt)
    ensures s.running ==> (r.running <==> r.timeElapsed < MaxTime)
    ensures s.running && !r.running ==> r.message == (if LevelsStable(r.h1) then Stable else Unstable)
    ensures r.running ==> r.message == s.message
  {
    if !s.running then s
    else
      var stepped := Step(s, g, sqrt);
      if stepped.timeElapsed < MaxTime then stepped
      else stepped.(running := false, message := if LevelsStable(stepped.h1) then Stable else Unstable)
  }

  /** `start_simulation`: ignored while running; otherwise restore the initial
      histories, mark the simulation running and take the first step. */
  function StartSimulation(s: Tank, g: Gains, sqrt: real --> real): (r: Tank)
    requires IsSqrt(sqrt)
    ensures s.running ==> r == s
    ensures !s.running ==> r == Animate(Restarted(s).(running := true), g, sqrt)
    ensures !s.running ==> r.running && |r.h1| == 2 && r.h1[0] == 0.0 && r.timeElapsed == Dt
  {
    if s.running then s else Animate(Restarted(s).(running := true), g, sqrt)
  }

  /** Start and reset record a previous error of 0, so the first tick of every run
      sees the full error 0.5 as a jump: its derivative is 0.5 / 0.1 = 5, not 0. */
  lemma FirstTickDerivativeKick(s: Tank, g: Gains, sqrt: real --> real)
    requires IsSqrt(sqrt) && !s.running
    ensures StartSimulation(s, g, sqrt).derivatives == [0.0, 5.0]
  {
  }

  /** Every step keeps the histories aligned and every recorded quantity within its clamp. */
  lemma AnimateKeepsInv(s: Tank, g: Gains, sqrt: real --> real)
    requires IsSqrt(sqrt) && Inv(s)
    ensures Inv(Animate(s, g, sqrt))
  {
    var r := Animate(s, g, sqrt);
    if s.running {
      assert r.h1 == s.h1 + [Last(r.h1)];
      assert r.kvs == s.kvs + [Last(r.kvs)];
      AllInAppend(s.h1, Last(r.h1), 0.0, 1.0);
      AllInAppend(s.kvs, Last(r.kvs), 0.0, KvMax);
      AllInAppend(s.integrals, r.integral, -IntegralBound, IntegralBound);
    }
  }

  /** With the desired level 0.5 and the level kept in [0, 1], the anti-windup
      condition (full tank and positive error) can never hold, so the integral always
      accumulates the error before it is clamped. */
  lemma AntiWindupNeverEngages(s: Tank, g: Gains, sqrt: real --> real)
    requires IsSqrt(sqrt) && Inv(s) && s.running
    ensures var h := Last(s.h1);
            Animate(s, g, sqrt).integral
              == Clamp(s.integral + (DesiredLevel - h) * Dt, -IntegralBound, IntegralBound)
  {
    var h := Last(s.h1);
    assert 0.0 <= h <= 1.0;
    assert !(h >= 1.0 && DesiredLevel - h > 0.0);
  }

  /** The timer: `animate` re-schedules itself while the simulation runs; n ticks
      are n - 1 ticks followed by one more. */
  function Iterate(s: Tank, g: Gains, sqrt: real --> real, n: nat): (r: Tank)
    requires IsSqrt(sqrt) && |s.h1| > 0
    ensures |r.h1| > 0
    decreases n
  {
    if n == 0 then s else Animate(Iterate(s, g, sqrt, n - 1), g, sqrt)
  }

  /** A running simulation at tick k moves to tick k + 1, records one more level,
      and keeps running exactly when k + 1 < 500. */
  lemma AnimateTick(s: Tank, g: Gains, sqrt: real --> real, k: nat)
    requires IsSqrt(sqrt) && |s.h1| > 0 && s.running && s.timeElapsed == Ticks(k, Dt)
    ensures Animate(s, g, sqrt).timeElapsed == Ticks(k + 1, Dt)
    ensures Animate(s, g, sqrt).running <==> k + 1 < StepsPerRun
    ensures |Animate(s, g, sqrt).h1| == |s.h1| + 1
  {
    TicksNext(k, Dt);
    TicksBelow(k + 1, StepsPerRun, Dt);
    assert Ticks(StepsPerRun, Dt) == MaxTime;
  }

  /** While running at tick k, n further ticks reach tick k + n; the simulation is
      still running exactly when k + n < 500, and each tick added one level. */
  lemma {:induction false} IterateClock(s: Tank, g: Gains, sqrt: real --> real, k: nat, n: nat)
    requires IsSqrt(sqrt) && |s.h1| > 0 && s.running
    requires s.timeElapsed == Ticks(k, Dt) && k + n <= StepsPerRun && k < StepsPerRun
    ensures Iterate(s, g, sqrt, n).timeElapsed == Ticks(k + n, Dt)
    ensures Iterate(s, g, sqrt, n).running <==> k + n < StepsPerRun
    ensures |Iterate(s, g, sqrt, n).h1| == |s.h1| + n
    decreases n
  {
    if n > 0 {
      IterateClock(s, g, sqrt, k, n - 1);
      AnimateTick(Iterate(s, g, sqrt, n - 1), g, sqrt, k + n - 1);
    }
  }

  /** A started simulation runs for exactly 500 steps (the start's own step and 499
      timer ticks), then stops with 501 levels recorded and a verdict displayed. */
  lemma RunLength(s: Tank, g: Gains, sqrt: real --> real)
    requires IsSqrt(sqrt) && !s.running
    ensures var r := Iterate(StartSimulation(s, g, sqrt), g, sqrt, StepsPerRun - 1);
            && !r.running && |r.h1| == StepsPerRun + 1
            && r.message == (if LevelsStable(r.h1) then Stable else Unstable)
  {
    var s1 := StartSimulation(s, g, sqrt);
    IterateClock(s1, g, sqrt, 1, StepsPerRun - 1);
    IterateClock(s1, g, sqrt, 1, StepsPerRun - 2);
  }

  /** Before its 500th step the simulation is still running. */
  lemma RunsUntilLastStep(s: Tank, g: Gains, sqrt: real --> real, n: nat)
    requires IsSqrt(sqrt) && !s.running && n < StepsPerRun - 1
    ensures Iterate(StartSimulation(s, g, sqrt), g, sqrt, n).running
  {
    IterateClock(StartSimulation(s, g, sqrt), g, sqrt, 1, n);
  }
}

=== FILE: tank_web.dfy ===
/** Quest 4 (web version): the whole PID tank run computed in one loop over the
    time grid, plus the session bookkeeping of the page's run. The time grid that
    numpy's `arange` produces is a parameter. */
module TankWeb {
  import opened Common

  const Inflow: real := 0.1
  const Area: real := 1.0
  const KvMax: real := 1.0
  const HitTolerance: real := 0.05
  const DesiredLevel: real := 0.5

  datatype Gains = Gains(kp: real, ki: real, kd: real)

  datatype PidData = PidData(
    times: seq<real>,
    levels: seq<real>,
    kvs: seq<real>,
    errors: seq<real>,
    integrals: seq<real>,
    derivatives: seq<real>)

  /** All six series have the same, non-zero length. */
  predicate Aligned(d: PidData)
  {
    && |d.times| > 0
    && |d.levels| == |d.times| && |d.kvs| == |d.times| && |d.errors| == |d.times|
    && |d.integrals| == |d.times| && |d.derivatives| == |d.times|
  }

  /** The valve opening the PID law commands, clamped to [0, 1]. */
  function Valve(g: Gains, error: real, integral: real, derivative: real): (kv: real)
    ensures 0.0 <= kv <= KvMax
  {
    Clamp(g.kp * error + g.ki * integral + g.kd * derivative, 0.0, KvMax)
  }

  /** The level after one Euler step of the tank under the valve opening `kv`,
      clamped to [0, 1]. */
  function NextLevel(level: real, kv: real, dt: real, sqrt: real --> real): (r: real)
    requires IsSqrt(sqrt)
    ensures 0.0 <= r <= 1.0
  {
    Clamp(level + (Inflow - kv * sqrt(Max(level, 0.0))) / Area * dt, 0.0, 1.0)
  }

  /** One pass of `simulate_pid`'s loop, from the level before the step and the
      previous error and integral to the values recorded for the step. */
  ghost predicate StepOk(g: Gains, desired: real, dt: real, sqrt: real --> real,
                         levelBefore: real, errorBefore: real, integralBefore: real,
                         error: real, integral: real, derivative: real, kv: real, level: real)
    requires IsSqrt(sqrt) && dt != 0.0
  {
    // the error is measured against the level before the step
    && error == desired - levelBefore
    // the integral is the unclamped running sum of error * dt
    && integral == integralBefore + error * dt
    // the derivative is the backward difference of the errors
    && derivative == (error - errorBefore) / dt
    && kv == Valve(g, error, integral, derivative)
    && level == NextLevel(levelBefore, kv, dt, sqrt)
  }

  /** Sample `j` follows from sample `j - 1` by one step of `simulate_pid`'s loop. */
  ghost predicate StepRelation(d: PidData, j: nat, g: Gains, desired: real, dt: real, sqrt: real --> real)
    requires Aligned(d) && 1 <= j < |d.times| && IsSqrt(sqrt) && dt != 0.0
  {
    StepOk(g, desired, dt, sqrt, d.levels[j - 1], d.errors[j - 1], d.integrals[j - 1],
           d.errors[j], d.integrals[j], d.derivatives[j], d.kvs[j], d.levels[j])
  }

  /** Every sample after the first follows from its predecessor, and the series
      start from an empty tank. */
  ghost predicate Follows(d: PidData, g: Gains, desired: real, dt: real, sqrt: real --> real)
    requires IsSqrt(sqrt) && dt != 0.0
  {
    && Aligned(d)
    && d.times[0] == 0.0 && d.levels[0] == 0.0 && d.kvs[0] == 0.0 && d.errors[0] == desired
    && d.integrals[0] == 0.0 && d.derivatives[0] == 0.0
    && AllIn(d.levels, 0.0, 1.0) && AllIn(d.kvs, 0.0, KvMax)
    && forall j :: 1 <= j < |d.times| ==> StepRelation(d, j, g, desired, dt, sqrt)
  }

  function Append(d: PidData, t: real, level: real, kv: real, error: real, integral: real, derivative: real): (r: PidData)
    requires Aligned(d)
    ensures Aligned(r) && |r.times| == |d.times| + 1
  {
    PidData(d.times + [t], d.levels + [level], d.kvs + [kv], d.errors + [error],
            d.integrals + [integral], d.derivatives + [derivative])
  }

  /** Appending a sample that follows from the last one keeps the whole series consistent. */
  lemma AppendFollows(d: PidData, t: real, level: real, kv: real, error: real, integral: real,
                      derivative: real, g: Gains, desired: real, dt: real, sqrt: real --> real)
    requires IsSqrt(sqrt) && dt != 0.0 && Follows(d, g, desired, dt, sqrt)
    requires StepOk(g, desired, dt, sqrt, Last(d.levels), Last(d.errors), Last(d.integrals),
                    error, integral, derivative, kv, level)
    ensures Follows(Append(d, t, level, kv, error, integral, derivative), g, desired, dt, sqrt)
  {
    var r := Append(d, t, level, kv, error, integral, derivative);
    var n := |d.times|;
    assert r.levels[n - 1] == Last(d.levels) && r.errors[n - 1] == Last(d.errors);
    assert r.integrals[n - 1] == Last(d.integrals);
    assert StepRelation(r, n, g, desired, dt, sqrt);
    assert r.levels == d.levels + [level] && r.kvs == d.kvs + [kv];
    AllInAppend(d.levels, level, 0.0, 1.0);
    AllInAppend(d.kvs, kv, 0.0, KvMax);
    forall j | 1 <= j < |d.times|
      ensures StepRelation(r, j, g, desired, dt, sqrt)
    {
      assert StepRelation(d, j, g, desired, dt, sqrt);
      assert r.levels[j] == d.levels[j] && r.levels[j - 1] == d.levels[j - 1];
      assert r.errors[j] == d.errors[j] && r.errors[j - 1] == d.errors[j - 1];
      assert r.integrals[j] == d.integrals[j] && r.integrals[j - 1] == d.integrals[j - 1];
      assert r.derivatives[j] == d.derivatives[j] && r.kvs[j] == d.kvs[j];
      assert StepRelation(r, j, g, desired, dt, sqrt);
    }
  }

  /** The values one pass of `simulate_pid`'s loop records. */
  datatype Sample = Sample(error: real, integral: real, derivative: real, kv: real, level: real)

  /** One pass of the loop body, from the current level, integral and previous error. */
  function PidStep(g: Gains, desired: real, dt: real, sqrt: real --> real,
                   level: real, integral: real, previous: real): (r: Sample)
    requires IsSqrt(sqrt) && dt != 0.0
    ensures StepOk(g, desired, dt, sqrt, level, previous, integral,
                   r.error, r.integral, r.derivative, r.kv, r.level)
    ensures 0.0 <= r.kv <= KvMax && 0.0 <= r.level <= 1.0
  {
    var error := desired - level;
    var integral' := integral + error * dt;
    var derivative := (error - previous) / dt;
    var kv := Valve(g, error, integral', derivative);
    Sample(error, integral', derivative, kv, NextLevel(level, kv, dt, sqrt))
  }

  /** One pass of `simulate_pid`'s loop at grid time `t`: the step from the last
      recorded sample, appended to every series. */
  function Extend(d: PidData, t: real, g: Gains, desired: real, dt: real, sqrt: real --> real): (r: PidData)
    requires IsSqrt(sqrt) && dt != 0.0 && Follows(d, g, desired, dt, sqrt)
    ensures Follows(r, g, desired, dt, sqrt)
    ensures r.times == d.times + [t]
  {
    var x := PidStep(g, desired, dt, sqrt, Last(d.levels), Last(d.integrals), Last(d.errors));
    AppendFollows(d, t, x.level, x.kv, x.error, x.integral, x.derivative, g, desired, dt, sqrt);
    Append(d, t, x.level, x.kv, x.error, x.integral, x.derivative)
  }

  /** `simulate_pid`: starting from an empty tank, for each time `t` of the grid
      compute the PID terms, clamp the valve to [0, 1], take one Euler step of
      the level, clamp it to [0, 1] and append one entry to every series. */
  method SimulatePid(g: Gains, desired: real, dt: real, grid: seq<real>, sqrt: real --> real)
    returns (d: PidData)
    requires IsSqrt(sqrt) && dt != 0.0
    ensures Follows(d, g, desired, dt, sqrt)
    ensures d.times == [0.0] + grid
  {
    d := PidData([0.0], [0.0], [0.0], [desired - 0.0], [0.0], [0.0]);
    var i := 0;
    while i < |grid|
      invariant 0 <= i <= |grid|
      invariant Follows(d, g, desired, dt, sqrt)
      invariant d.times == [0.0] + grid[..i]
    {
      d := Extend(d, grid[i], g, desired, dt, sqrt);
      assert grid[..i + 1] == grid[..i] + [grid[i]];
      i := i + 1;
    }
    assert grid[..i] == grid;
  }

  /** Consequences of `Follows` the page relies on: the integral is the running sum
      and the first derivative is zero (the previous error starts at the initial error). */
  lemma FollowsFacts(d: PidData, g: Gains, desired: real, dt: real, sqrt: real --> real)
    requires IsSqrt(sqrt) && dt != 0.0 && Follows(d, g, desired, dt, sqrt)
    ensures forall j :: 1 <= j < |d.times| ==> d.integrals[j] == d.integrals[j - 1] + d.errors[j] * dt
    ensures |d.times| > 1 ==> d.derivatives[1] == 0.0
  {
    forall j | 1 <= j < |d.times|
      ensures d.integrals[j] == d.integrals[j - 1] + d.errors[j] * dt
    {
      assert StepRelation(d, j, g, desired, dt, sqrt);
    }
    if |d.times| > 1 {
      assert StepRelation(d, 1, g, desired, dt, sqrt);
    }
  }

  /** The page's session state. `waterLevel` is the session's scalar level, which
      only the initialisation and the reset write. */
  datatype Session = Session(waterLevel: real, data: PidData, complete: bool)

  /** `initialize_session_state` on a fresh session, and `reset_simulation`. */
  function InitialSession(): (s: Session)
    ensures s.waterLevel == 0.0 && !s.complete && Aligned(s.data)
    ensures s.data == PidData([0.0], [0.0], [0.0], [0.0], [0.0], [0.0])
  {
    Session(0.0, PidData([0.0], [0.0], [0.0], [0.0], [0.0], [0.0]), false)
  }

  /** The success test `run` applies, as written: it reads the session's scalar
      level, not the simulated one. */
  function ReportedSuccessAsWritten(s: Session): (b: bool)
    ensures b <==> -HitTolerance < DesiredLevel - s.waterLevel < HitTolerance
  {
    Abs(DesiredLevel - s.waterLevel) < HitTolerance
  }

  /** The success test as evidently intended: the final simulated level is within
      the tolerance of the desired level. */
  function ReportedSuccess(s: Session): (b: bool)
    requires Aligned(s.data)
    ensures b <==> DesiredLevel - HitTolerance < Last(s.data.levels) < DesiredLevel + HitTolerance
  {
    Abs(DesiredLevel - Last(s.data.levels)) < HitTolerance
  }

  /** One execution of `run`: reset wins over the other buttons (the page reruns
      with a fresh session and nothing complete), skip stops the page before
      anything is shown, and a start while no run is complete simulates and stores
      the series. Whenever a run is complete the verdict is shown; the scalar level
      is never written by a run. */
  method Run(s: Session, startPressed: bool, resetPressed: bool, skipPressed: bool, g: Gains,
             grid: seq<real>, sqrt: real --> real)
    returns (s': Session, shown: Option<bool>)
    requires IsSqrt(sqrt)
    ensures resetPressed ==> s' == InitialSession() && shown == None
    ensures !resetPressed && skipPressed ==> s' == s && shown == None
    ensures !resetPressed && !skipPressed && (!startPressed || s.complete) ==> s' == s
    ensures !resetPressed && !skipPressed && startPressed && !s.complete ==>
              && s'.complete && s'.data.times == [0.0] + grid
              && Follows(s'.data, g, DesiredLevel, 0.1, sqrt)
              && s'.waterLevel == s.waterLevel
    ensures !resetPressed && !skipPressed ==>
              shown == if s'.complete then Some(ReportedSuccessAsWritten(s')) else None
  {
    if resetPressed {
      return InitialSession(), None;
    }
    if skipPressed {
      return s, None;
    }
    s' := s;
    if startPressed && !s.complete {
      var d := SimulatePid(g, DesiredLevel, 0.1, grid, sqrt);
      s' := s.(data := d, complete := true);
    }
    shown := if s'.complete then Some(ReportedSuccessAsWritten(s')) else None;
  }

  /** The discrepancy: on every session the page can reach (its scalar level is
      0.0), a run whose final level sits exactly on the target is still reported
      as a failure, while the intended test reports success. */
  lemma StableRunReportedAsFailure(s: Session)
    requires s.waterLevel == 0.0 && Aligned(s.data) && Last(s.data.levels) == DesiredLevel
    ensures !ReportedSuccessAsWritten(s)
    ensures ReportedSuccess(s)
  {
  }
}

=== FILE: training.dfy ===
/** Quest 7: the control of the digit-classifier training loop (the running flag, the
    epoch counter, the four metric histories and the success threshold) and the
    discrete helpers of the network: ReLU, its derivative, one-hot encoding, the
    arg-max prediction and the accuracy. The matrix algebra of an epoch is left
    out; each epoch's four metrics are a parameter. */
module Training {
  import opened Common

  const Classes: nat := 10
  /** `success_threshold`, in percent. */
  const SuccessThreshold: real := 90.0

  /** `relu` on one entry: `np.maximum(0, z)`. */
  function Relu(z: real): (r: real)
    ensures 0.0 <= r && z <= r
    ensures r == 0.0 || r == z
  {
    if 0.0 < z then z else 0.0
  }

  /** `relu_derivative` on one entry: `(z > 0).astype(float)`. */
  function ReluDerivative(z: real): (r: real)
    ensures r == 0.0 || r == 1.0
    ensures r == 1.0 <==> 0.0 < z
  {
    if 0.0 < z then 1.0 else 0.0
  }

  /** The derivative is the slope of ReLU: ReLU is the identity where the derivative
      is 1 and zero where it is 0. */
  lemma ReluIsSlopeTimesInput(z: real)
    ensures Relu(z) == ReluDerivative(z) * z
  {
  }

  /** `relu` applied elementwise to a row. */
  function ReluRow(zs: seq<real>): (r: seq<real>)
    ensures |r| == |zs|
    ensures forall i :: 0 <= i < |zs| ==> r[i] == Relu(zs[i])
  {
    seq(|zs|, i requires 0 <= i < |zs| => Relu(zs[i]))
  }

  /** One row of the one-hot encoding: 1 in the digit's column, 0 elsewhere. */
  function OneHotRow(digit: nat): (r: seq<real>)
    requires digit < Classes
    ensures |r| == Classes
    ensures forall j :: 0 <= j < Classes ==> r[j] == if j == digit then 1.0 else 0.0
  {
    seq(Classes, j requires 0 <= j < Classes => if j == digit then 1.0 else 0.0)
  }

  /** The one-hot encoding of a batch of labels (`y_one_hot[arange(n), y] = 1`); the
      labels are digits. */
  function OneHot(labels: seq<nat>): (r: seq<seq<real>>)
    requires forall i :: 0 <= i < |labels| ==> labels[i] < Classes
    ensures |r| == |labels|
    ensures forall i :: 0 <= i < |labels| ==> r[i] == OneHotRow(labels[i])
  {
    seq(|labels|, i requires 0 <= i < |labels| => OneHotRow(labels[i]))
  }

  function Sum(xs: seq<real>): real
  {
    if |xs| == 0 then 0.0 else Sum(xs[..|xs| - 1]) + xs[|xs| - 1]
  }

  /** A row that is zero except possibly at `k` sums to its entry at `k`. */
  lemma {:induction false} SumSingle(xs: seq<real>, k: nat)
    requires k < |xs|
    requires forall j :: 0 <= j < |xs| && j != k ==> xs[j] == 0.0
    ensures Sum(xs) == xs[k]
    decreases |xs|
  {
    var n := |xs| - 1;
    if n == k {
      SumZero(xs[..n]);
    } else {
      SumSingle(xs[..n], k);
    }
  }

  lemma {:induction false} SumZero(xs: seq<real>)
    requires forall j :: 0 <= j < |xs| ==> xs[j] == 0.0
    ensures Sum(xs) == 0.0
    decreases |xs|
  {
    if |xs| > 0 {
      SumZero(xs[..|xs| - 1]);
    }
  }

  /** Each one-hot row holds exactly one 1, in the digit's column: its entries sum to
      1 and every other entry is 0. */
  lemma OneHotRowHasSingleOne(digit: nat)
    requires digit < Classes
    ensures Sum(OneHotRow(digit)) == 1.0
    ensures forall j :: 0 <= j < Classes && j != digit ==> OneHotRow(digit)[j] == 0.0
  {
    SumSingle(OneHotRow(digit), digit);
  }

  /** `np.argmax` on one row: the first index holding the largest entry. */
  function ArgMax(row: seq<real>): (k: nat)
    requires |row| > 0
    ensures k < |row|
    ensures forall j :: 0 <= j < |row| ==> row[j] <= row[k]
    ensures forall j :: 0 <= j < k ==> row[j] < row[k]
  {
    ArgMaxFrom(row, 1, 0)
  }

  function ArgMaxFrom(row: seq<real>, i: nat, best: nat): (k: nat)
    requires best < i <= |row|
    requires forall j :: 0 <= j < i ==> row[j] <= row[best]
    requires forall j :: 0 <= j < best ==> row[j] < row[best]
    ensures k < |row|
    ensures forall j :: 0 <= j < |row| ==> row[j] <= row[k]
    ensures forall j :: 0 <= j < k ==> row[j] < row[k]
    decreases |row| - i
  {
    if i == |row| then best
    else if row[i] > row[best] then ArgMaxFrom(row, i + 1, i)
    else ArgMaxFrom(row, i + 1, best)
  }

  /** Decoding a one-hot row with arg-max gives back the digit. */
  lemma ArgMaxOneHot(digit: nat)
    requires digit < Classes
    ensures ArgMax(OneHotRow(digit)) == digit
  {
    var row := OneHotRow(digit);
    var k := ArgMax(row);
    assert row[digit] <= row[k];
  }

  /** The positions where the prediction equals the label: the true entries of
      `predictions == labels`. */
  ghost function MatchingIndices(predictions: seq<nat>, labels: seq<nat>): set<nat>
    requires |predictions| == |labels|
  {
    set i: nat | i < |labels| && predictions[i] == labels[i]
  }

  /** The matching positions of a batch are those of all but its last entry, plus
      the last position when that prediction is right. */
  lemma MatchSetSplit(predictions: seq<nat>, labels: seq<nat>)
    requires |predictions| == |labels| > 0
    ensures var n := |labels| - 1;
            MatchingIndices(predictions, labels)
              == MatchingIndices(predictions[..n], labels[..n])
                 + (if predictions[n] == labels[n] then {n} else {})
  {
  }

  function CountMatches(predictions: seq<nat>, labels: seq<nat>): (c: nat)
    requires |predictions| == |labels|
    ensures c == |MatchingIndices(predictions, labels)|
    ensures c <= |labels|
    ensures c == |labels| <==> predictions == labels
  {
    if |labels| == 0 then 0
    else
      var n := |labels| - 1;
      var rest := CountMatches(predictions[..n], labels[..n]);
      MatchSetSplit(predictions, labels);
      assert n !in MatchingIndices(predictions[..n], labels[..n]);
      assert predictions == labels <==> predictions[..n] == labels[..n] && predictions[n] == labels[n] by {
        if predictions[..n] == labels[..n] && predictions[n] == labels[n] {
          assert predictions == predictions[..n] + [predictions[n]];
          assert labels == labels[..n] + [labels[n]];
        }
      }
      rest + if predictions[n] == labels[n] then 1 else 0
  }

  /** `np.mean(predictions == labels)`: the fraction of correct predictions. */
  function Accuracy(predictions: seq<nat>, labels: seq<nat>): (a: real)
    requires |predictions| == |labels| > 0
    ensures a * |labels| as real == |MatchingIndices(predictions, labels)| as real
    ensures 0.0 <= a <= 1.0
    ensures a == 1.0 <==> predictions == labels
  {
    var c := CountMatches(predictions, labels);
    FractionBounds(c, |labels|);
    c as real / |labels| as real
  }

  /** A count out of n, as a fraction: in [0, 1], and 1 exactly when all n count. */
  lemma FractionBounds(c: nat, n: nat)
    requires 0 < n && c <= n
    ensures 0.0 <= c as real / n as real <= 1.0
    ensures c as real / n as real == 1.0 <==> c == n
  {
    var f := c as real / n as real;
    assert f * n as real == c as real;
    if c == n {
      assert f == 1.0;
    } else {
      assert f * n as real < 1.0 * n as real;
      assert f < 1.0;
    }
    assert 0.0 * n as real <= f * n as real;
  }

  /** The predictions of a batch, one arg-max per row. */
  function Predictions(rows: seq<seq<real>>): (r: seq<nat>)
    requires forall i :: 0 <= i < |rows| ==> |rows[i]| > 0
    ensures |r| == |rows|
    ensures forall i :: 0 <= i < |rows| ==> r[i] == ArgMax(rows[i])
  {
    seq(|rows|, i requires 0 <= i < |rows| => ArgMax(rows[i]))
  }

  /** A network whose output rows were exactly the one-hot labels would score an
      accuracy of 1. */
  lemma PerfectOutputsScoreOne(labels: seq<nat>)
    requires |labels| > 0 && forall i :: 0 <= i < |labels| ==> labels[i] < Classes
    ensures Accuracy(Predictions(OneHot(labels)), labels) == 1.0
  {
    var p := Predictions(OneHot(labels));
    forall i | 0 <= i < |labels| ensures p[i] == labels[i] {
      ArgMaxOneHot(labels[i]);
    }
    assert p == labels;
  }

  /** The four values one `train_epoch` appends, computed by the numerics the model
      leaves out. */
  datatype EpochMetrics = EpochMetrics(trainLoss: real, trainAccuracy: real, valLoss: real, valAccuracy: real)

  datatype Message = NoMessage | NoAccuracy | Succeeded | TryAgain

  datatype Trainer = Trainer(
    running: bool,
    epoch: nat,        // training_epoch
    maxEpochs: nat,    // max_epochs, fixed by start_training from the epochs slider
    trainLosses: seq<real>,
    valLosses: seq<real>,
    trainAccuracies: seq<real>,
    valAccuracies: seq<real>,
    message: Message)

  /** The four metric histories have one entry per trained epoch. */
  predicate Aligned(s: Trainer)
  {
    |s.valLosses| == |s.trainLosses| && |s.trainAccuracies| == |s.trainLosses|
    && |s.valAccuracies| == |s.trainLosses|
  }

  /** The quest's initial state (`__init__`); `max_epochs` is first set by a start. */
  function NewTrainer(): (s: Trainer)
    ensures Aligned(s) && !s.running && s.epoch == 0 && |s.valAccuracies| == 0
  {
    Trainer(false, 0, 0, [], [], [], [], NoMessage)
  }

  /** `check_success`: an error when no validation accuracy was recorded, otherwise
      success exactly when the last one is at least 90 %. */
  function CheckSuccess(valAccuracies: seq<real>): (m: Message)
    ensures m == NoAccuracy <==> |valAccuracies| == 0
    ensures m == Succeeded <==> |valAccuracies| > 0 && Last(valAccuracies) >= 0.9
    ensures m != NoMessage
  {
    if |valAccuracies| == 0 then NoAccuracy
    else if Last(valAccuracies) * 100.0 >= SuccessThreshold then Succeeded
    else TryAgain
  }

  /** The bookkeeping of `train_epoch`: one value appended to each history. */
  function TrainEpoch(s: Trainer, m: EpochMetrics): (r: Trainer)
    ensures r.trainLosses == s.trainLosses + [m.trainLoss] && r.valLosses == s.valLosses + [m.valLoss]
    ensures r.trainAccuracies == s.trainAccuracies + [m.trainAccuracy]
    ensures r.valAccuracies == s.valAccuracies + [m.valAccuracy]
    ensures r.running == s.running && r.epoch == s.epoch && r.maxEpochs == s.maxEpochs && r.message == s.message
  {
    s.(trainLosses := s.trainLosses + [m.trainLoss], valLosses := s.valLosses + [m.valLoss],
       trainAccuracies := s.trainAccuracies + [m.trainAccuracy],
       valAccuracies := s.valAccuracies + [m.valAccuracy])
  }

  /** `train_next_epoch`: while running with epochs left, train one epoch and count
      it (the timer then calls again); otherwise stop and check for success. */
  function TrainNextEpoch(s: Trainer, m: EpochMetrics): (r: Trainer)
    ensures s.running && s.epoch < s.maxEpochs ==>
              r == TrainEpoch(s, m).(epoch := s.epoch + 1) && r.running
    ensures !(s.running && s.epoch < s.maxEpochs) ==>
              r == s.(running := false, message := CheckSuccess(s.valAccuracies))
    ensures Aligned(s) ==> Aligned(r)
  {
    if s.epoch < s.maxEpochs && s.running then TrainEpoch(s, m).(epoch := s.epoch + 1)
    else s.(running := false, message := CheckSuccess(s.valAccuracies))
  }

  /** `start_training`: ignored while running; otherwise clear the histories, fix the
      number of epochs from the slider and train the first epoch. */
  function StartTraining(s: Trainer, epochs: nat, m: EpochMetrics): (r: Trainer)
    ensures s.running ==> r == s
    ensures !s.running ==>
              r == TrainNextEpoch(Trainer(true, 0, epochs, [], [], [], [], s.message), m)
    ensures !s.running && epochs > 0 ==> r.running && r.epoch == 1 && r.valAccuracies == [m.valAccuracy]
  {
    if s.running then s
    else TrainNextEpoch(Trainer(true, 0, epochs, [], [], [], [], s.message), m)
  }

  /** `reset_training`: stop, clear the histories and the epoch counter and the
      message. The network's re-initialisation is left out. */
  function ResetTraining(s: Trainer): (r: Trainer)
    ensures Aligned(r) && !r.running && r.epoch == 0 && r.message == NoMessage
    ensures |r.trainLosses| == 0 && |r.valAccuracies| == 0 && r.maxEpochs == s.maxEpochs
  {
    s.(running := false, epoch := 0, trainLosses := [], valLosses := [], trainAccuracies := [],
       valAccuracies := [], message := NoMessage)
  }

  /** A reset while an epoch is already scheduled: the pending call finds training
      stopped and reports that no validation accuracy was recorded. */
  lemma ResetDuringTrainingReportsNoAccuracy(s: Trainer, m: EpochMetrics)
    ensures var r := TrainNextEpoch(ResetTraining(s), m);
            !r.running && r.message == NoAccuracy && |r.valAccuracies| == 0
  {
  }

  /** The timer: `train_next_epoch` called once per metrics record. */
  function Drive(s: Trainer, ms: seq<EpochMetrics>): (r: Trainer)
    decreases |ms|
  {
    if |ms| == 0 then s else Drive(TrainNextEpoch(s, ms[0]), ms[1..])
  }

  /** The validation accuracies of a prefix of the metrics. */
  function ValAccuracies(ms: seq<EpochMetrics>): (r: seq<real>)
    ensures |r| == |ms| && forall i :: 0 <= i < |ms| ==> r[i] == ms[i].valAccuracy
  {
    seq(|ms|, i requires 0 <= i < |ms| => ms[i].valAccuracy)
  }

  /** The state `Drive` reaches from `s` over `ms`: stopped at `maxEpochs`, with the
      validation accuracies of all but the last metrics appended, judged on them. */
  ghost predicate DrivenFrom(r: Trainer, s: Trainer, ms: seq<EpochMetrics>)
    requires |ms| > 0
  {
    && !r.running && r.epoch == s.maxEpochs && Aligned(r)
    && r.valAccuracies == s.valAccuracies + ValAccuracies(ms[..|ms| - 1])
    && r.message == CheckSuccess(r.valAccuracies)
  }

  /** Appending the first accuracy and then those of the middle metrics appends the
      accuracies of all but the last metrics. */
  lemma ValAccuraciesShift(prefix: seq<real>, ms: seq<EpochMetrics>)
    requires |ms| >= 2
    ensures (prefix + [ms[0].valAccuracy]) + ValAccuracies(ms[1..][..|ms| - 2])
            == prefix + ValAccuracies(ms[..|ms| - 1])
  {
    var middle := ValAccuracies(ms[1..][..|ms| - 2]);
    var all := ValAccuracies(ms[..|ms| - 1]);
    assert all == [ms[0].valAccuracy] + middle;
    assert (prefix + [ms[0].valAccuracy]) + middle == prefix + ([ms[0].valAccuracy] + middle);
  }

  /** The inductive step of `DriveTrains`: one epoch trained before the rest. */
  lemma DriveStep(s: Trainer, ms: seq<EpochMetrics>)
    requires Aligned(s) && s.running && s.epoch < s.maxEpochs && |ms| >= 2
    requires DrivenFrom(Drive(TrainNextEpoch(s, ms[0]), ms[1..]), TrainNextEpoch(s, ms[0]), ms[1..])
    ensures DrivenFrom(Drive(s, ms), s, ms)
  {
    var s1 := TrainNextEpoch(s, ms[0]);
    var r := Drive(s1, ms[1..]);
    assert Drive(s, ms) == r;
    assert s1.valAccuracies == s.valAccuracies + [ms[0].valAccuracy] && s1.maxEpochs == s.maxEpochs;
    ValAccuraciesShift(s.valAccuracies, ms);
  }

  /** The last call of `DriveTrains`: at `maxEpochs` the next call stops and judges. */
  lemma DriveLast(s: Trainer, ms: seq<EpochMetrics>)
    requires Aligned(s) && s.running && s.epoch == s.maxEpochs && |ms| == 1
    ensures DrivenFrom(Drive(s, ms), s, ms)
  {
    assert ms[1..] == [];
    assert ValAccuracies(ms[..0]) == [];
  }

  /** While running at epoch k, each call trains one more epoch until `maxEpochs`;
      the call after that stops and reports the verdict on the last accuracy. */
  lemma {:induction false} DriveTrains(s: Trainer, ms: seq<EpochMetrics>)
    requires Aligned(s) && s.running && s.epoch <= s.maxEpochs
    requires |ms| == s.maxEpochs - s.epoch + 1
    ensures var r := Drive(s, ms);
            && !r.running && r.epoch == s.maxEpochs && Aligned(r)
            && r.valAccuracies == s.valAccuracies + ValAccuracies(ms[..|ms| - 1])
            && r.message == CheckSuccess(r.valAccuracies)
    decreases |ms|
  {
    if s.epoch < s.maxEpochs {
      DriveTrains(TrainNextEpoch(s, ms[0]), ms[1..]);
      DriveStep(s, ms);
    } else {
      DriveLast(s, ms);
    }
  }

  /** An uninterrupted run started with `epochs` epochs trains exactly that many:
      the counter ends at `epochs`, every history has one entry per epoch, the
      validation accuracies are those of the epochs in order, and the verdict is on
      the last one. */
  lemma FullRun(s: Trainer, epochs: nat, ms: seq<EpochMetrics>)
    requires !s.running && |ms| == epochs + 1
    ensures var r := Drive(StartTraining(s, epochs, ms[0]), ms[1..]);
            && !r.running && r.epoch == epochs && Aligned(r)
            && |r.trainLosses| == epochs
            && r.valAccuracies == ValAccuracies(ms[..epochs])
            && r.message == CheckSuccess(r.valAccuracies)
  {
    var s0 := Trainer(true, 0, epochs, [], [], [], [], s.message);
    if epochs == 0 {
      assert ms[1..] == [];
      assert ValAccuracies(ms[..0]) == [];
    } else {
      var s1 := StartTraining(s, epochs, ms[0]);
      DriveTrains(s1, ms[1..]);
      assert ms[1..][..|ms[1..]| - 1] == ms[1..epochs];
      assert ValAccuracies(ms[..epochs]) == [ms[0].valAccuracy] + ValAccuracies(ms[1..epochs]);
    }
  }
}
